=== FILE: README.md ===
# Gene Summon: the draw and rarity logic in Dafny

Gene Summon is a toy gacha. A sperm "race" decides a capsule tier from a
random motility. The capsule tier biases a random card rarity, and the
backend hands out a random card of that rarity. The React frontend maps the
card's rarity to colours, icons, overlay effects and sounds, and it tracks
the collection in a "Spermdex".

This project models the decision logic of both halves as pure Dafny
functions:

- the backend's rarity tables, race ladder and card pick (`Server`);
- the weighted pool selection `weightedRandomSelect` (`Random`);
- the backend and frontend swimmer catalogs (`BackendCatalog`, `FrontendCatalog`);
- the frontend's rarity look-ups (`RarityHelpers`);
- the summon request and the record-to-card mapping (`Api`);
- the Spermdex counting (`Spermdex`);
- the sound choice and the mute flag (`SoundPlayer`).

Every `Math.random()` becomes an explicit `real` sample `u` in [0, 1).
`Math.floor(u * n)` is `(u * n as real).Floor`. JavaScript's `undefined` and
`null` are `Option.None`. Every operation is a pure function of its inputs,
so no pool, table or card list is ever modified.

Two shared modules hold the common concepts. `Basics` has the four tiers,
`Option`/`Result` and `Filter`. `Weights` has prefix sums and the "first
position whose running total covers the draw" search, `FirstCovering`. Both
scans in `index.js` and the one in `random.js` are that one search. It is
strict (`draw < total`) in `index.js` and non-strict (`draw <= total`, from
"subtract, then `<= 0`") in `random.js`. `Journeys` states what happens to a
card on its way from one half to the other.

The odds in `index.js` are written as fractions of 1 (0.7, 0.2, …). The model
keeps them as whole percentages (70, 20, …) and compares `100 * u` against
the running total. In exact arithmetic `u < p/100` holds exactly when
`100 * u < p`.

The capsule tier depends on motility alone (`gene-summon-backend/index.js:53-56`).
Unknown capsule tiers and rarities are never rejected: the server falls back
to the base weights, the frontend's colour, icon, gradient, effect and
sound look-ups fall back to the Common entry, and the model does the same.
The Spermdex does not fall back: a card with an unknown rarity counts toward
no section, and an unknown rarity's total is 0.

## Model

| member | source | states |
|---|---|---|
| `Basics.ParseTier` | frontend/src/utils/rarityHelpers.js:9-14 | A string is recognised as a tier only if it is that tier's exact name; the four names and nothing else are recognised (`ParseTierRecognisesOnlyTierNames`), so every table keyed by tier name treats any other string as missing |
| `Basics.Filter` | gene-summon-backend/index.js:64 | `Array.filter`: keeps only elements that pass, loses none that pass, never grows the list |
| `Basics.FilterAppend` | frontend/src/components/SpermdexView.jsx:16 | Filtering a list with one more element adds that element exactly when it passes |
| `Weights.FirstCoveringFrom` | gene-summon-backend/index.js:28-33 | The running-total scan from a position returns the first later position whose total covers the draw, or nothing when none does |
| `Weights.FirstCovering` | gene-summon-backend/index.js:39-43 | The scan's result is the first position whose running total covers the draw; `None` means no position covers it (the fall-through) |
| `Weights.PrefixStrictlyIncreasing` | gene-summon-backend/utils/random.js:5-7 | With positive weights the running totals strictly increase, so later positions cover strictly more |
| `Weights.DrawBelowTotalIsCovered` | gene-summon-backend/utils/random.js:2-7 | For a non-empty list and a draw in [0, total), some position covers the draw |
| `Weights.FirstCoveringMonotone` | gene-summon-backend/utils/random.js:5-7 | A smaller draw never stops the scan at a later position |
| `Weights.SelectedBand` | gene-summon-backend/utils/random.js:5-7 | Position k is chosen exactly when the draw lies in the band between running totals k and k+1, whose width is weight k |
| `Weights.PickByDraw` | gene-summon-backend/index.js:65 | `list[Math.floor(w * list.length)]`: for w in [0, 1) an element exists exactly when the list is non-empty, it is the one at that index, and it is a member of the list |
| `BackendCatalog.CapsuleRates` | gene-summon-backend/sperms.js:1-6 | Common, Rare, Epic, Mythic in that order, weights strictly decreasing and positive, total 100 |
| `BackendCatalog.Sperms` | gene-summon-backend/sperms.js:8-36 | The pools are keyed by exactly the four tier names |
| `BackendCatalog.SpermsWellFormed` | gene-summon-backend/sperms.js:9-36 | Every pool has five swimmers with positive weights summing to 100 and distinct names |
| `BackendCatalog.CapsuleRatesHavePools` | gene-summon-backend/sperms.js:1-9 | Every `capsuleRates` tier has a pool |
| `BackendCatalog.PoolsHaveCapsuleRates` | gene-summon-backend/sperms.js:1-9 | Every pool belongs to a `capsuleRates` tier |
| `Random.WeightedRandomSelect` | gene-summon-backend/utils/random.js:1-9 | The loop returns the first item whose running weight total reaches `u * total`, an item of the pool; an empty pool, or a draw beyond the total, gives `undefined` |
| `Random.SelectionAlwaysSucceeds` | gene-summon-backend/utils/random.js:2-7 | A non-empty pool with positive weights always yields an item for u in [0, 1) |
| `Random.CatalogPoolsAlwaysSelect` | gene-summon-backend/sperms.js:8-36 | Every catalog pool yields one of its own swimmers for u in [0, 1) |
| `Random.SelectedExactlyInBand` | gene-summon-backend/utils/random.js:2-7 | Item k is selected exactly for scaled draws in (total before k, total through k], a band as wide as its weight; item 0 also takes the draw 0 |
| `Random.SelectionMonotone` | gene-summon-backend/utils/random.js:5-7 | A larger sample never selects an earlier item |
| `Server.BaseRarityWeightsWellFormed` | gene-summon-backend/index.js:12 | Base weights are Common, Rare, Epic, Legendary in that order, positive, total 100 |
| `Server.RarityOddsWellFormed` | gene-summon-backend/index.js:15-20 | One odds row per tier name; each row lists Common, Rare, Epic, Legendary with positive percentages summing to 100 |
| `Server.ScanRows` | gene-summon-backend/index.js:28-33 | The `for … of` loop with its accumulator returns the key of the first row whose running total exceeds the draw, else "Common" |
| `Server.PickRandomRarity` | gene-summon-backend/index.js:23-45 | The pick is always one of Common, Rare, Epic, Legendary, and never "Mythic" |
| `Server.ScanInputShape` | gene-summon-backend/index.js:34-37 | Both branches scan a well-formed table with a draw of `100 * u`; in the base branch the total is 100 |
| `Server.UnknownTierUsesBaseWeights` | gene-summon-backend/index.js:24 | A missing, empty or unrecognised capsule tier ("Legendary" included) picks exactly as with no tier |
| `Server.PickExactlyInBand` | gene-summon-backend/index.js:29-31 | For u in [0, 1) the scan never reaches the "Common" fallback, and rarity k is returned exactly when `100 * u` lies in [total before k, total through k) |
| `Server.LegendaryOddsRiseWithTier` | gene-summon-backend/index.js:16-19 | The last row of every table is "Legendary", with 2 < 5 < 10 < 40 percent from Common to Mythic capsules and 5 percent without one |
| `Server.RaceTier` | gene-summon-backend/index.js:53-56 | Mythic exactly above 85, Epic on (75, 85], Rare on (65, 75], Common at 65 and below |
| `Server.RaceTierMonotone` | gene-summon-backend/index.js:53-56 | A higher motility never gives a lower tier |
| `Server.Race` | gene-summon-backend/index.js:48-59 | Velocity lies in [30, 100] and motility in [50, 100] for samples in [0, 1); the tier is the ladder applied to motility |
| `Server.RaceTierIgnoresVelocityAndLinearity` | gene-summon-backend/index.js:53-56 | The tier does not change with velocity or linearity |
| `Server.PickCard` | gene-summon-backend/index.js:64-65 | A picked card has the requested rarity and comes from the card list; for w in [0, 1) a card is picked exactly when some card has that rarity |
| `Server.PickCardIndexesFilteredList` | gene-summon-backend/index.js:73-74 | The pick is the element at `floor(w * n)` of the rarity-filtered list of length n |
| `Server.Summon` | gene-summon-backend/index.js:70-76 | A summoned card comes from the card list and carries one of the four pickable rarities |
| `Server.SummonGet` | gene-summon-backend/index.js:62-67 | `GET /summon` returns a listed card of a pickable rarity, and draws exactly as the POST endpoint does for any capsule tier that is not a tier name |
| `Server.MythicCardsNeverSummoned` | gene-summon-backend/index.js:72-74 | No summon, with any capsule tier, yields a card of rarity "Mythic" |
| `FrontendCatalog.AllSperms` | frontend/src/constants/sperms.js:3-32 | The catalog is keyed by exactly the four tier names |
| `FrontendCatalog.AllSpermsWellFormed` | frontend/src/constants/sperms.js:4-31 | Every tier lists five swimmers with distinct names |
| `FrontendCatalog.EpicAndMythicMirrored` | frontend/src/constants/sperms.js:18-31 | On Epic and Mythic every name and quote equals the backend catalog's, position by position |
| `FrontendCatalog.CommonMirroredExceptDriftyDave` | frontend/src/constants/sperms.js:4-10 | Common names all match the backend's; quotes match except Drifty Dave's, which has a straight apostrophe where the backend has a curly one |
| `FrontendCatalog.RareMirroredExceptZoominZane` | frontend/src/constants/sperms.js:11-17 | Rare entries match the backend's except Zoomin' Zane's name, which differs in the apostrophe |
| `RarityHelpers.TierOrCommon` | frontend/src/utils/rarityHelpers.js:15 | The tier a look-up uses: the named tier for a tier name, Common for anything else |
| `RarityHelpers.GetRarityColor` | frontend/src/utils/rarityHelpers.js:8-16 | The colour of the named tier, or the Common colour for any other string |
| `RarityHelpers.GlowColorMapAgrees` | frontend/src/utils/rarityHelpers.js:79-84 | `glowColorMap` has exactly the four tier keys and agrees with `getRarityColor` on each |
| `RarityHelpers.GetRarityIcon` | frontend/src/utils/rarityHelpers.js:23-31 | The icon of the named tier, or the Common icon for any other string |
| `RarityHelpers.GetRarityGradient` | frontend/src/utils/rarityHelpers.js:38-46 | The gradient of the named tier, or the Common gradient for any other string |
| `RarityHelpers.GetRarityEffect` | frontend/src/utils/rarityHelpers.js:53-76 | An overlay effect exists exactly for "Rare", "Epic" and "Mythic" |
| `RarityHelpers.TiersDistinguishable` | frontend/src/utils/rarityHelpers.js:9-29 | Two different tiers get different colours, different icons and different effects |
| `RarityHelpers.UnknownRarityLooksCommon` | frontend/src/utils/rarityHelpers.js:15-74 | Any non-tier string ("Legendary" included) gets the Common colour, icon and gradient and no effect |
| `RarityHelpers.CommonHasNoEffect` | frontend/src/utils/rarityHelpers.js:73-74 | Common itself has no overlay effect |
| `Api.SummonCard` | frontend/src/api.js:7-34 | A falsy tier throws before any request; a failed reply throws with its status text; a card is returned exactly for a truthy tier and a delivered reply, and it is that reply mapped with the requested tier |
| `Api.MissingTierIgnoresReply` | frontend/src/api.js:8-33 | Without a tier the outcome does not depend on the backend at all |
| `Api.ToCard` | frontend/src/api.js:23-30 | Name passes through; trait and flavour text are the quote; emoji is the droplet; rarity is the record's when present, else the requested tier; stats are the record's, else empty |
| `Api.ToCardRoundTrip` | frontend/src/api.js:24-29 | A record with a rarity and stats is recovered exactly from its card |
| `Api.MissingRarityTakesRequestedTier` | frontend/src/api.js:28 | A record without a rarity yields a card of the requested tier |
| `Spermdex.CollectedData` | frontend/src/components/SpermdexView.jsx:107 | A collected card is found exactly when one with that rarity and name exists, and it is the first such card |
| `Spermdex.IsSpermCollected` | frontend/src/components/SpermdexView.jsx:10-12 | A tile marked collected always means its section's collected count is positive |
| `Spermdex.CollectedCount` | frontend/src/components/SpermdexView.jsx:16 | At most the collection's length; 0 exactly when no card has that rarity; the whole length when every card has it |
| `Spermdex.GetCollectedCount` | frontend/src/components/SpermdexView.jsx:15-19 | The collected half is the count of cards with that rarity, duplicates included; the total is 5 for each tier name and 0 otherwise |
| `Spermdex.CollectedCountAppend` | frontend/src/components/SpermdexView.jsx:16 | Collecting a card adds one to its own rarity's count and nothing to any other, duplicates included |
| `Spermdex.UnknownRarityCountsNowhere` | frontend/src/components/SpermdexView.jsx:46-47 | A card whose rarity is not a section name changes no section's count |
| `Spermdex.CollectedCanExceedTotal` | frontend/src/components/SpermdexView.jsx:15-18 | Six copies of one Common card read 6 collected out of 5 |
| `SoundPlayer.GetRandomSound` | frontend/src/soundPlayer.js:63-74 | A sound comes from the rarity's list, or from Common's when the rarity has none; for u in [0, 1) there is no sound exactly when both lists are missing or empty |
| `SoundPlayer.OwnSoundAtScaledIndex` | frontend/src/soundPlayer.js:64-73 | A rarity with sounds plays the one at `floor(u * n)` of its list |
| `SoundPlayer.MissingRarityFallsBackToCommon` | frontend/src/soundPlayer.js:65-71 | A rarity without sounds plays exactly what Common would |
| `SoundPlayer.RaritySoundMap` | frontend/src/soundMap.js:12-17 | The shipped map has exactly the four tier keys, two sounds each |
| `SoundPlayer.ShippedMapAlwaysHasSound` | frontend/src/soundPlayer.js:63-74 | With the shipped map every rarity string gets a sound, a non-tier string one of Common's |
| `SoundPlayer.EffectsFor` | frontend/src/soundPlayer.js:144 | The effects of the named tier, or Common's for any other string |
| `SoundPlayer.EffectsRiseWithTier` | frontend/src/soundPlayer.js:94-130 | Volume stays at most 0.35, and volume and playback rate rise strictly from Common to Mythic |
| `SoundPlayer.ReverbMix` | frontend/src/soundPlayer.js:204-206 | Dry and wet gains sum to 1, and the wet gain is 0.35 or 0.5 |
| `SoundPlayer.WetGainAlwaysLow` | frontend/src/soundPlayer.js:124 | No tier's reverb exceeds 2.5 seconds, so the wet gain is always 0.35 |
| `SoundPlayer.IsMuted` | frontend/src/soundPlayer.js:11-14 | A store without the "soundMuted" entry reads as not muted; muted means that entry holds what storing `true` writes |
| `SoundPlayer.OnlyMuteKeyMatters` | frontend/src/soundPlayer.js:11-14 | Two stores that agree on the "soundMuted" entry agree on the mute state |
| `SoundPlayer.SetMuted` | frontend/src/soundPlayer.js:16-18 | After storing the flag, reading it gives the value stored; no other stored key changes |
| `SoundPlayer.ToggleMute` | frontend/src/soundPlayer.js:302-306 | Returns the negation of the previous state, and that is the state now stored |
| `SoundPlayer.ToggleTwiceRestores` | frontend/src/soundPlayer.js:302-306 | Toggling twice restores the original mute state |
| `SoundPlayer.SetMutedLastWins` | frontend/src/soundPlayer.js:298-300 | Setting the flag twice equals setting it once to the later value |
| `SoundPlayer.PlayWith` | frontend/src/soundPlayer.js:133-276 | A playback uses the drawn, non-empty path at the rarity's volume and rate; a drawn non-empty path always plays; the reverb mix, with wet gain 0.35, is added exactly on the Web Audio path for a tier with reverb |
| `SoundPlayer.PlayRaritySound` | frontend/src/soundPlayer.js:279-291 | Nothing plays when muted; otherwise the path comes from the Web Audio draw or the HTML Audio redraw, at the rarity's volume |
| `SoundPlayer.ShippedRaritySoundPlaysUnlessMuted` | frontend/src/soundPlayer.js:279-291 | With the shipped map a rarity sound plays exactly when not muted |
| `SoundPlayer.PlayRegularSound` | frontend/src/soundPlayer.js:309-347 | Nothing plays exactly when muted; otherwise the regular sound at volume 0.2 |
| `SoundPlayer.MuteSilencesEverything` | frontend/src/soundPlayer.js:281-313 | After muting neither player plays; after unmuting the regular sound plays |
| `Journeys.MythicCapsuleDrawsLegendary` | gene-summon-backend/index.js:19 | A Mythic capsule gives "Legendary" for every sample in [0.6, 1) |
| `Journeys.SummonedRarityReachesFrontend` | frontend/src/api.js:28 | A delivered backend card keeps the rarity the backend drew; the requested tier is never substituted |
| `Journeys.LegendaryCardLooksCommonAndCountsNowhere` | frontend/src/utils/rarityHelpers.js:15-74 | A "Legendary" card is shown with every Common look, gets no effect, and counts toward no Spermdex section |
| `Journeys.MythicSectionStaysEmpty` | frontend/src/components/SpermdexView.jsx:10-16 | A collection of backend-drawable rarities never counts a Mythic card or marks a Mythic tile collected |
| `Journeys.CatalogZaneNeverMarksTile` | frontend/src/constants/sperms.js:15 | Cards carrying the backend catalog's Rare names never mark the frontend's "Zoomin' Zane" tile collected |

## Left out

- Network and server plumbing: `fetch`, Express routing, CORS and ports. The backend's reply and the request outcome are parameters of `Api.SummonCard`.
- The contents of `gene-summon-backend/data/spermCards.json` are not part of this model. The card list is a parameter of `Server.Summon`.
- The `/cards` listing endpoint returns that file unchanged and is not modelled.
- `linearity` is a random number rounded to two decimals. The rounding is a float-formatting detail that never affects the tier, so `Server.Race` takes the value as given.
- Floating point: odds, weights and samples are exact. Floating-point accumulation in the odds scan (for example 0.7 + 0.2 + 0.08 + 0.02 landing just under 1) is not modelled. The fall-through to "Common" is modelled as written and shown unreachable for exact arithmetic.
- The capsule tier in a request body is modelled as an optional string. Other JSON values (numbers, objects) are not modelled.
- JavaScript prototype keys such as `rarityOdds["constructor"]` or `colorMap["toString"]` are not modelled; look-ups see only the tables' own keys.
- Web Audio and HTML Audio graph building, decoding and playback are left out, and so is `createReverbImpulse` (float noise). `SoundPlayer.PlayWith` describes a playback by its path, volume, rate and wet gain, and whether the Web Audio attempt succeeds is a parameter.
- The bass-boost and low-pass filter settings are kept in the `rarityEffects` table but not applied to anything.
- `localStorage` is a string-to-string map that only the mute flag uses.
- The stop-the-current-sound bookkeeping (`currentSource`, `currentHTMLAudio`) is left out, because it is mutable playback state.
- The React rendering and animation around the Spermdex, the card view and the race are left out. Only the counting and look-up functions are modelled.
- `capsuleRates` and `weightedRandomSelect` are modelled as written, but `index.js` calls neither. Its draws use its own tables.
- `Spermdex.CollectedCount`: its own contract fixes the count only at the extremes (none or all of the cards match). The count in between is pinned down by `Spermdex.CollectedCountAppend`, one card at a time.
- `RarityHelpers.GetRarityGradient`: the four gradients are not proved pairwise distinct. They differ only inside long strings, which makes the comparison expensive to state, and the colours and icons already tell the tiers apart.

=== FILE: api.dfy ===
/** The frontend's summon call (frontend/src/api.js, `summonCard`): refuse a
    missing capsule tier, otherwise send it and turn the backend's record into
    the card the UI shows. The network exchange itself is a parameter: the
    reply the backend gave, or the status text of a failed request. */
module Api {
  import opened Basics

  /** The JSON record the backend answers with. `rarity` and `stats` may be
      missing. */
  datatype Record = Record(name: string, quote: string, rarity: Option<string>, stats: Option<map<string, int>>)

  /** The outcome of the POST request. */
  datatype Reply = Delivered(data: Record) | Failed(statusText: string)

  datatype SummonError = TierRequired | SummonFailed(statusText: string)

  /** The card the frontend keeps and displays (`traitText` is the JavaScript
      field `trait`, a reserved word here). */
  datatype Card = Card(name: string, emoji: string, traitText: string, flavorText: string,
                       rarity: string, stats: map<string, int>)

  /** The emoji every summoned card gets, since the backend provides none. */
  const Droplet: string := "\U{1F4A7}"

  /** JavaScript truthiness of an optional string: present and non-empty. */
  predicate Truthy(s: Option<string>)
  {
    s.Some? && s.value != ""
  }

  /** The request body `{ capsuleTier }` that `summonCard` would POST, or the
      error it throws before sending anything. */
  function SummonRequest(capsuleTier: Option<string>): (r: Result<string, SummonError>)
  {
    if Truthy(capsuleTier) then Ok(capsuleTier.value) else Err(TierRequired)
  }

  /** The response-to-card mapping. */
  function ToCard(data: Record, capsuleTier: string): (c: Card)
    ensures c.name == data.name
    ensures c.traitText == data.quote && c.flavorText == data.quote
    ensures c.emoji == Droplet
    ensures c.rarity == (if Truthy(data.rarity) then data.rarity.value else capsuleTier)
    ensures c.stats == (if data.stats.Some? then data.stats.value else map[])
  {
    Card(data.name, Droplet, data.quote,
         data.quote,
         if Truthy(data.rarity) then data.rarity.value else capsuleTier,
         if data.stats.Some? then data.stats.value else map[])
  }

  /** `summonCard(capsuleTier)`. */
  function SummonCard(capsuleTier: Option<string>, reply: Reply): (r: Result<Card, SummonError>)
    ensures !Truthy(capsuleTier) ==> r == Err(TierRequired)
    ensures Truthy(capsuleTier) && reply.Failed? ==> r == Err(SummonFailed(reply.statusText))
    ensures r.Ok? ==> Truthy(capsuleTier) && reply.Delivered?
    ensures Truthy(capsuleTier) && reply.Delivered? ==> r == Ok(ToCard(reply.data, capsuleTier.value))
  {
    match SummonRequest(capsuleTier)
    case Err(e) => Err(e)
    case Ok(tier) =>
      match reply
      case Failed(status) => Err(SummonFailed(status))
      case Delivered(data) => Ok(ToCard(data, tier))
  }

  /** Without a capsule tier the reply is never looked at: the error is thrown
      before any request is made. */
  lemma MissingTierIgnoresReply(capsuleTier: Option<string>, reply: Reply, reply': Reply)
    requires !Truthy(capsuleTier)
    ensures SummonCard(capsuleTier, reply) == SummonCard(capsuleTier, reply')
  {
  }

  /** The record a card came from, read back: name, quote, rarity and stats. */
  function FromCard(c: Card): Record
  {
    Record(c.name, c.traitText, Some(c.rarity), Some(c.stats))
  }

  /** Round trip: a record that carries a non-empty rarity and its stats is
      recovered exactly from the card made of it, whatever tier was asked for. */
  lemma ToCardRoundTrip(data: Record, capsuleTier: string)
    requires Truthy(data.rarity) && data.stats.Some?
    ensures FromCard(ToCard(data, capsuleTier)) == data
  {
  }

  /** A record without a rarity takes the requested tier's name. */
  lemma MissingRarityTakesRequestedTier(data: Record, capsuleTier: Option<string>)
    requires Truthy(capsuleTier)
    requires !Truthy(data.rarity)
    ensures SummonCard(capsuleTier, Delivered(data)).Ok?
    ensures SummonCard(capsuleTier, Delivered(data)).value.rarity == capsuleTier.value
  {
  }
}

=== FILE: backend_catalog.dfy ===
/** The backend's static catalog (gene-summon-backend/sperms.js): the capsule
    tier rates and, for each tier, a pool of named swimmers with integer draw
    weights. */
module BackendCatalog {
  import opened Basics
  import opened Weights

  /** A `{ key, weight }` row: a capsule rate or one rarity's odds. */
  datatype Weighted = Weighted(key: string, weight: int)

  /** One entry of a tier pool. */
  datatype PoolItem = PoolItem(name: string, quote: string, weight: int)

  function RowWeights(rows: seq<Weighted>): seq<int>
  {
    seq(|rows|, i requires 0 <= i < |rows| => rows[i].weight)
  }

  function PoolWeights(pool: seq<PoolItem>): seq<int>
  {
    seq(|pool|, i requires 0 <= i < |pool| => pool[i].weight)
  }

  predicate NamesUnique(pool: seq<PoolItem>)
  {
    forall i, j :: 0 <= i < j < |pool| ==> pool[i].name != pool[j].name
  }

  /** What the catalog promises of each tier pool: exactly five swimmers with
      distinct names and positive weights that add up to 100. */
  predicate WellFormedPool(pool: seq<PoolItem>)
  {
    && |pool| == 5
    && AllPositive(PoolWeights(pool))
    && Sum(PoolWeights(pool)) == 100
    && NamesUnique(pool)
  }

  /** `capsuleRates`: the four tiers in ascending order, each strictly rarer
      than the one before, with weights that add up to 100. */
  function CapsuleRates(): (rates: seq<Weighted>)
    ensures |rates| == 4
    ensures forall i :: 0 <= i < 4 ==> rates[i].key == TierName(TierOfRank(i))
    ensures forall i, j :: 0 <= i < j < 4 ==> rates[i].weight > rates[j].weight > 0
    ensures Sum(RowWeights(rates)) == 100
  {
    var rates := [Weighted("Common", 55), Weighted("Rare", 25), Weighted("Epic", 15), Weighted("Mythic", 5)];
    SumOfFour(RowWeights(rates));
    rates
  }

  /** The tier whose `Rank` is `i`. */
  function TierOfRank(i: nat): (t: Tier)
    requires i < 4
    ensures Rank(t) == i
  {
    if i == 0 then Common else if i == 1 then Rare else if i == 2 then Epic else Mythic
  }

  function CommonPool(): seq<PoolItem>
  {
    [ PoolItem("Lazy Larry", "Still deciding which way the egg is.", 25),
      PoolItem("Drifty Dave", "Just vibin\U{2019} in the vas deferens.", 25),
      PoolItem("Timid Timmy", "Refuses to swim without floaties.", 20),
      PoolItem("No-Tail Neil", "Technically still participating.", 15),
      PoolItem("Bubble Boy", "Too much caffeine, not enough direction.", 15) ]
  }

  function RarePool(): seq<PoolItem>
  {
    [ PoolItem("Turbo Tom", "Born to spin.", 30),
      PoolItem("Captain Wiggle", "Motility is my middle name.", 25),
      PoolItem("Benny Biflagella", "Two tails. Double trouble.", 20),
      PoolItem("Zoomin\U{2019} Zane", "Has never touched a wall \U{2014} yet.", 15),
      PoolItem("Backstroke Barry", "Invented the freestyle for sperm.", 10) ]
  }

  function EpicPool(): seq<PoolItem>
  {
    [ PoolItem("Professor Wiggle", "Theoretical physicist of the testes.", 30),
      PoolItem("Slick Rick", "No egg too far, no rival too fast.", 25),
      PoolItem("Don Juan de Swim", "Flirts with every ovum in sight.", 20),
      PoolItem("Hydro Harold", "Powered by electrolytes and ambition.", 15),
      PoolItem("Mitochondrius Maximus", "All power. No mercy.", 10) ]
  }

  function MythicPool(): seq<PoolItem>
  {
    [ PoolItem("The Chosen One (Swimothy)", "Prophecy foretold: one shall reach the egg.", 2),
      PoolItem("Genezilla", "Mutated beyond mortal means.", 10),
      PoolItem("Wiggly Stardust", "A swimmer from beyond the stars.", 20),
      PoolItem("Aqua Saiyan", "Has achieved Ultra Instinct Motility.", 30),
      PoolItem("Professor Fertilis", "Has seen the egg\U{2026} and returned.", 38) ]
  }

  /** `sperms`: one pool per capsule tier, keyed by the tier's name. */
  function Sperms(): (m: map<string, seq<PoolItem>>)
    ensures m.Keys == TierNames
  {
    TierMap(CommonPool(), RarePool(), EpicPool(), MythicPool())
  }

  /** Every tier of `capsuleRates` has a pool in `sperms`. */
  lemma CapsuleRatesHavePools()
    ensures forall i :: 0 <= i < |CapsuleRates()| ==> CapsuleRates()[i].key in Sperms()
  {
    var rates := CapsuleRates();
    forall i | 0 <= i < |rates|
      ensures rates[i].key in Sperms()
    {
      TierNameRoundTrip(TierOfRank(i));
    }
  }

  /** `sperms` has a pool for no other key than the tiers of `capsuleRates`. */
  lemma PoolsHaveCapsuleRates(k: string)
    requires k in Sperms()
    ensures exists i :: 0 <= i < |CapsuleRates()| && CapsuleRates()[i].key == k
  {
    ParseTierRecognisesOnlyTierNames(k);
    var t := ParseTier(k).value;
    RankInjective(t, TierOfRank(Rank(t)));
    assert CapsuleRates()[Rank(t)].key == k;
  }

  /** Every pool of `sperms` has five swimmers with positive weights that add
      up to 100 and distinct names. */
  lemma SpermsWellFormed(t: string)
    ensures t in Sperms() ==> WellFormedPool(Sperms()[t])
  {
    var m := Sperms();
    if t !in m {
    } else if m[t] == CommonPool() {
      CommonPoolWellFormed();
    } else if m[t] == RarePool() {
      RarePoolWellFormed();
    } else if m[t] == EpicPool() {
      EpicPoolWellFormed();
    } else {
      MythicPoolWellFormed();
    }
  }

  lemma CommonPoolWellFormed()
    ensures WellFormedPool(CommonPool())
  {
    SumOfFive(PoolWeights(CommonPool()));
  }

  lemma RarePoolWellFormed()
    ensures WellFormedPool(RarePool())
  {
    SumOfFive(PoolWeights(RarePool()));
  }

  lemma EpicPoolWellFormed()
    ensures WellFormedPool(EpicPool())
  {
    SumOfFive(PoolWeights(EpicPool()));
  }

  lemma MythicPoolWellFormed()
    ensures WellFormedPool(MythicPool())
  {
    SumOfFive(PoolWeights(MythicPool()));
  }
}

=== FILE: basics.dfy ===
/** Values shared by every part of the model: optional and fallible results,
    the four canonical rarity tiers and their names, and an order-preserving
    filter (JavaScript's `Array.prototype.filter`). */
module Basics {

  /** A value that may be absent: JavaScript's `undefined` / `null`. */
  datatype Option<+T> = None | Some(value: T)

  /** A value or a thrown error. */
  datatype Result<+T, +E> = Ok(value: T) | Err(error: E)

  /** The capsule tiers, in ascending desirability. */
  datatype Tier = Common | Rare | Epic | Mythic

  /** The string key under which a tier appears in every table of the program. */
  function TierName(t: Tier): string
  {
    match t
    case Common => "Common"
    case Rare => "Rare"
    case Epic => "Epic"
    case Mythic => "Mythic"
  }

  /** Recognises exactly the four canonical keys; anything else (including the
      legacy "Legendary") is not a tier. */
  function ParseTier(s: string): (r: Option<Tier>)
    ensures r.Some? ==> TierName(r.value) == s
  {
    if s == "Common" then Some(Common)
    else if s == "Rare" then Some(Rare)
    else if s == "Epic" then Some(Epic)
    else if s == "Mythic" then Some(Mythic)
    else None
  }

  /** Position of a tier in the order Common < Rare < Epic < Mythic. */
  function Rank(t: Tier): (r: nat)
    ensures r < 4
  {
    match t
    case Common => 0
    case Rare => 1
    case Epic => 2
    case Mythic => 3
  }

  /** The keys of the four tiers. */
  const TierNames: set<string> := {"Common", "Rare", "Epic", "Mythic"}

  /** A table keyed by the four tier names, as every table of the program is. */
  function TierMap<V>(common: V, rare: V, epic: V, mythic: V): (m: map<string, V>)
    ensures m.Keys == TierNames
    ensures m["Common"] == common && m["Rare"] == rare && m["Epic"] == epic && m["Mythic"] == mythic
    ensures forall k :: k in m ==> m[k] == common || m[k] == rare || m[k] == epic || m[k] == mythic
  {
    map["Common" := common, "Rare" := rare, "Epic" := epic, "Mythic" := mythic]
  }

  lemma TierNameRoundTrip(t: Tier)
    ensures ParseTier(TierName(t)) == Some(t)
    ensures TierName(t) in TierNames
  {
  }

  lemma ParseTierRecognisesOnlyTierNames(s: string)
    ensures ParseTier(s).Some? <==> s in TierNames
  {
  }

  /** `Rank` orders the tiers without ties, so comparing ranks compares tiers. */
  lemma RankInjective(a: Tier, b: Tier)
    ensures Rank(a) == Rank(b) <==> a == b
  {
  }

  /** The elements of `s` that satisfy `p`, in their original order. */
  function Filter<T>(s: seq<T>, p: T -> bool): (r: seq<T>)
    ensures |r| <= |s|
    ensures forall i :: 0 <= i < |r| ==> r[i] in s && p(r[i])
    ensures forall i :: 0 <= i < |s| && p(s[i]) ==> s[i] in r
  {
    if |s| == 0 then []
    else if p(s[|s| - 1]) then Filter(s[..|s| - 1], p) + [s[|s| - 1]]
    else Filter(s[..|s| - 1], p)
  }

  /** Filtering after appending one element only looks at that element. */
  lemma FilterAppend<T>(s: seq<T>, x: T, p: T -> bool)
    ensures Filter(s + [x], p) == if p(x) then Filter(s, p) + [x] else Filter(s, p)
  {
    assert (s + [x])[..|s + [x]| - 1] == s;
  }

  /** Filtering keeps a list whose every element passes. */
  lemma {:induction false} FilterKeepsAll<T>(s: seq<T>, p: T -> bool)
    requires forall i :: 0 <= i < |s| ==> p(s[i])
    ensures Filter(s, p) == s
  {
    if |s| > 0 {
      FilterKeepsAll(s[..|s| - 1], p);
      assert s[..|s| - 1] + [s[|s| - 1]] == s;
    }
  }
}

=== FILE: frontend_catalog.dfy ===
/** The frontend's reference list of every swimmer (frontend/src/constants/sperms.js),
    which its own header describes as the backend's full list, and how it
    compares with the backend catalog it claims to copy. */
module FrontendCatalog {
  import opened Basics
  import BackendCatalog

  /** One swimmer as the frontend lists it: no weight. */
  datatype Entry = Entry(name: string, quote: string)

  predicate EntryNamesUnique(entries: seq<Entry>)
  {
    forall i, j :: 0 <= i < j < |entries| ==> entries[i].name != entries[j].name
  }

  function CommonEntries(): seq<Entry>
  {
    [ Entry("Lazy Larry", "Still deciding which way the egg is."),
      Entry("Drifty Dave", "Just vibin' in the vas deferens."),
      Entry("Timid Timmy", "Refuses to swim without floaties."),
      Entry("No-Tail Neil", "Technically still participating."),
      Entry("Bubble Boy", "Too much caffeine, not enough direction.") ]
  }

  function RareEntries(): seq<Entry>
  {
    [ Entry("Turbo Tom", "Born to spin."),
      Entry("Captain Wiggle", "Motility is my middle name."),
      Entry("Benny Biflagella", "Two tails. Double trouble."),
      Entry("Zoomin' Zane", "Has never touched a wall \U{2014} yet."),
      Entry("Backstroke Barry", "Invented the freestyle for sperm.") ]
  }

  function EpicEntries(): seq<Entry>
  {
    [ Entry("Professor Wiggle", "Theoretical physicist of the testes."),
      Entry("Slick Rick", "No egg too far, no rival too fast."),
      Entry("Don Juan de Swim", "Flirts with every ovum in sight."),
      Entry("Hydro Harold", "Powered by electrolytes and ambition."),
      Entry("Mitochondrius Maximus", "All power. No mercy.") ]
  }

  function MythicEntries(): seq<Entry>
  {
    [ Entry("The Chosen One (Swimothy)", "Prophecy foretold: one shall reach the egg."),
      Entry("Genezilla", "Mutated beyond mortal means."),
      Entry("Wiggly Stardust", "A swimmer from beyond the stars."),
      Entry("Aqua Saiyan", "Has achieved Ultra Instinct Motility."),
      Entry("Professor Fertilis", "Has seen the egg\U{2026} and returned.") ]
  }

  /** `allSperms`: exactly the four tiers. */
  function AllSperms(): (m: map<string, seq<Entry>>)
    ensures m.Keys == TierNames
  {
    TierMap(CommonEntries(), RareEntries(), EpicEntries(), MythicEntries())
  }

  /** Every tier of `allSperms` lists five swimmers with distinct names. */
  lemma AllSpermsWellFormed(t: string)
    ensures t in AllSperms() ==> |AllSperms()[t]| == 5 && EntryNamesUnique(AllSperms()[t])
  {
    var m := AllSperms();
    if t !in m {
    } else if m[t] == CommonEntries() {
      CommonEntriesWellFormed();
    } else if m[t] == RareEntries() {
      RareEntriesWellFormed();
    } else if m[t] == EpicEntries() {
      EpicEntriesWellFormed();
    } else {
      MythicEntriesWellFormed();
    }
  }

  lemma CommonEntriesWellFormed()
    ensures |CommonEntries()| == 5 && EntryNamesUnique(CommonEntries())
  {
  }

  lemma RareEntriesWellFormed()
    ensures |RareEntries()| == 5 && EntryNamesUnique(RareEntries())
  {
  }

  lemma EpicEntriesWellFormed()
    ensures |EpicEntries()| == 5 && EntryNamesUnique(EpicEntries())
  {
  }

  lemma MythicEntriesWellFormed()
    ensures |MythicEntries()| == 5 && EntryNamesUnique(MythicEntries())
  {
  }

  // ---------------------------------------------------------------------
  // Comparison with the backend catalog
  // ---------------------------------------------------------------------

  /** The frontend entry mirrors the backend item: same name and same quote. */
  predicate Mirrors(e: Entry, item: BackendCatalog.PoolItem)
  {
    e.name == item.name && e.quote == item.quote
  }

  /** The straight apostrophe the frontend writes and the right single quotation
      mark the backend writes. */
  const Straight: char := '\''
  const Curly: char := '\U{2019}'

  /** The two catalogs agree position by position on Epic and Mythic. */
  lemma EpicAndMythicMirrored()
    ensures forall i :: 0 <= i < 5 ==> Mirrors(EpicEntries()[i], BackendCatalog.EpicPool()[i])
    ensures forall i :: 0 <= i < 5 ==> Mirrors(MythicEntries()[i], BackendCatalog.MythicPool()[i])
  {
  }

  /** On Common they agree everywhere except Drifty Dave's quote, which has a
      straight apostrophe here and a curly one in the backend. */
  lemma CommonMirroredExceptDriftyDave()
    ensures forall i :: 0 <= i < 5 ==> CommonEntries()[i].name == BackendCatalog.CommonPool()[i].name
    ensures forall i :: 0 <= i < 5 && i != 1 ==> Mirrors(CommonEntries()[i], BackendCatalog.CommonPool()[i])
    ensures CommonEntries()[1].quote[10] == Straight && BackendCatalog.CommonPool()[1].quote[10] == Curly
    ensures !Mirrors(CommonEntries()[1], BackendCatalog.CommonPool()[1])
  {
  }

  /** On Rare they agree everywhere except Zoomin' Zane, whose name differs in
      the same apostrophe, so a name-keyed match between the two lists misses
      that swimmer. */
  lemma RareMirroredExceptZoominZane()
    ensures forall i :: 0 <= i < 5 && i != 3 ==> Mirrors(RareEntries()[i], BackendCatalog.RarePool()[i])
    ensures RareEntries()[3].quote == BackendCatalog.RarePool()[3].quote
    ensures RareEntries()[3].name[6] == Straight && BackendCatalog.RarePool()[3].name[6] == Curly
    ensures RareEntries()[3].name != BackendCatalog.RarePool()[3].name
  {
  }
}

=== FILE: journeys.dfy ===
/** What happens to a summoned card on its way from the backend's draw to the
    frontend's card view and Spermdex: the backend hands out "Legendary" cards
    and never "Mythic" ones, while the frontend styles and counts only the four
    tier names. */
module Journeys {
  import opened Basics
  import opened Weights
  import Server
  import Api
  import RarityHelpers
  import Spermdex
  import BackendCatalog
  import FrontendCatalog

  /** The JSON record the backend sends for one of its cards. */
  function Reply(c: Server.Card): Api.Record
  {
    Api.Record(c.name, c.quote, Some(c.rarity), Some(c.stats))
  }

  /** A Mythic capsule yields a "Legendary" rarity for every sample in
      [0.6, 1): 40% of its draws. */
  lemma MythicCapsuleDrawsLegendary(u: real)
    requires 0.6 <= u < 1.0
    ensures Server.PickRandomRarity(Some("Mythic"), u) == "Legendary"
  {
    var ws := BackendCatalog.RowWeights(Server.RarityOdds()["Mythic"]);
    assert ws == [10, 20, 30, 40];
    PrefixAll(ws);
    PrefixStep(ws, 3);
    Server.PickExactlyInBand(Some("Mythic"), u, 3);
  }

  /** A delivered backend card reaches the frontend with the rarity the
      backend drew, for any capsule tier the frontend sent: the backend's
      rarity is never empty, so the requested tier is never substituted. */
  lemma SummonedRarityReachesFrontend(cards: seq<Server.Card>, capsuleTier: string, u: real, w: real)
    requires capsuleTier != ""
    requires Server.Summon(cards, Some(capsuleTier), u, w).Some?
    ensures var c := Server.Summon(cards, Some(capsuleTier), u, w).value;
            Api.SummonCard(Some(capsuleTier), Api.Delivered(Reply(c))) ==
              Ok(Api.ToCard(Reply(c), capsuleTier)) &&
            Api.ToCard(Reply(c), capsuleTier).rarity == c.rarity
  {
    var c := Server.Summon(cards, Some(capsuleTier), u, w).value;
    assert c.rarity in Server.CardRarities;
  }

  /** A "Legendary" card, the rarest the backend hands out, is drawn with the
      Common colour, icon and gradient, gets no overlay effect, and counts
      toward no Spermdex section. */
  lemma LegendaryCardLooksCommonAndCountsNowhere(collection: seq<Api.Card>, card: Api.Card)
    requires card.rarity == "Legendary"
    ensures RarityHelpers.GetRarityColor(card.rarity) == RarityHelpers.GetRarityColor("Common")
    ensures RarityHelpers.GetRarityIcon(card.rarity) == RarityHelpers.GetRarityIcon("Common")
    ensures RarityHelpers.GetRarityGradient(card.rarity) == RarityHelpers.GetRarityGradient("Common")
    ensures RarityHelpers.GetRarityEffect(card.rarity).None?
    ensures forall i :: 0 <= i < |Spermdex.Sections| ==>
              Spermdex.CollectedCount(collection + [card], Spermdex.Sections[i]) ==
              Spermdex.CollectedCount(collection, Spermdex.Sections[i])
  {
    RarityHelpers.UnknownRarityLooksCommon(card.rarity);
    Spermdex.UnknownRarityCountsNowhere(collection, card);
  }

  /** A collection made only of rarities the backend can draw (the four of
      `CardRarities`) never counts a Mythic card, so the Mythic section of the
      Spermdex stays at 0 collected. */
  lemma {:induction false} MythicSectionStaysEmpty(collection: seq<Api.Card>)
    requires forall i :: 0 <= i < |collection| ==> collection[i].rarity in Server.CardRarities
    ensures Spermdex.CollectedCount(collection, "Mythic") == 0
    ensures forall n :: !Spermdex.IsSpermCollected(collection, "Mythic", n)
  {
    if |collection| > 0 {
      var init := collection[..|collection| - 1];
      var last := collection[|collection| - 1];
      assert collection == init + [last];
      MythicSectionStaysEmpty(init);
      Spermdex.CollectedCountAppend(init, last, "Mythic");
    }
  }

  /** If cards carried the backend catalog's Rare names, no collection of
      them could mark the frontend's "Zoomin' Zane" tile collected: that name
      matches none of them, the curly-apostrophe spelling included. */
  lemma CatalogZaneNeverMarksTile(collection: seq<Api.Card>)
    requires forall i :: 0 <= i < |collection| ==>
               exists j :: 0 <= j < |BackendCatalog.RarePool()| && collection[i].name == BackendCatalog.RarePool()[j].name
    ensures !Spermdex.IsSpermCollected(collection, "Rare", FrontendCatalog.RareEntries()[3].name)
  {
    var zane := FrontendCatalog.RareEntries()[3].name;
    assert |zane| == 12 && zane[6] == FrontendCatalog.Straight;
    forall j | 0 <= j < |BackendCatalog.RarePool()|
      ensures BackendCatalog.RarePool()[j].name != zane
    {
      var name := BackendCatalog.RarePool()[j].name;
      if j == 3 {
        assert name[6] == FrontendCatalog.Curly;
      } else {
        assert |name| != 12;
      }
    }
  }
}

=== FILE: random.dfy ===
/** `weightedRandomSelect` (gene-summon-backend/utils/random.js): draw one item
    of a pool with probability proportional to its weight. The uniform sample
    `Math.random()` is the parameter `u`. */
module Random {
  import opened Basics
  import opened Weights
  import opened BackendCatalog

  /** The scaled draw `Math.random() * totalWeight`. */
  function ScaledDraw(pool: seq<PoolItem>, u: real): real
  {
    u * Sum(PoolWeights(pool)) as real
  }

  /** The position the cumulative-subtraction scan stops at: the first whose
      running weight total reaches the scaled draw. */
  function SelectedIndex(pool: seq<PoolItem>, u: real): Option<nat>
  {
    FirstCovering(PoolWeights(pool), ScaledDraw(pool, u), false)
  }

  /** The item at that position, if any. */
  function Selected(pool: seq<PoolItem>, u: real): Option<PoolItem>
  {
    match SelectedIndex(pool, u)
    case None => None
    case Some(i) => Some(pool[i])
  }

  /** The scan as the source writes it: subtract each weight from the scaled
      draw in order and return the first item that drives it to zero or below;
      fall off the end (`undefined`) otherwise. */
  method WeightedRandomSelect(pool: seq<PoolItem>, u: real) returns (r: Option<PoolItem>)
    ensures r == Selected(pool, u)
    ensures r.Some? <==> SelectedIndex(pool, u).Some?
    ensures |pool| == 0 ==> r.None?
    ensures r.Some? ==> r.value in pool
  {
    var ws := PoolWeights(pool);
    var totalWeight := 0;
    var k := 0;
    while k < |pool|
      invariant 0 <= k <= |pool|
      invariant totalWeight == Prefix(ws, k)
    {
      PrefixStep(ws, k);
      totalWeight := totalWeight + pool[k].weight;
      k := k + 1;
    }
    PrefixAll(ws);
    var x := u * totalWeight as real;
    assert x == ScaledDraw(pool, u);
    var randomNum := x;
    var i := 0;
    while i < |pool|
      invariant 0 <= i <= |pool|
      invariant randomNum == x - Prefix(ws, i) as real
      invariant forall j :: 0 <= j < i ==> !Covers(ws, x, j, false)
    {
      PrefixStep(ws, i);
      randomNum := randomNum - pool[i].weight as real;
      if randomNum <= 0.0 {
        FirstCoveringIs(ws, x, false, i);
        return Some(pool[i]);
      }
      i := i + 1;
    }
    FirstCoveringNone(ws, x, false);
    return None;
  }

  /** A well-formed pool always yields an item for a sample in [0, 1). */
  lemma SelectionAlwaysSucceeds(pool: seq<PoolItem>, u: real)
    requires |pool| > 0 && AllPositive(PoolWeights(pool))
    requires 0.0 <= u < 1.0
    ensures SelectedIndex(pool, u).Some?
    ensures Selected(pool, u).Some?
  {
    var ws := PoolWeights(pool);
    var x := ScaledDraw(pool, u);
    ScaledDrawBelowTotal(pool, u);
    DrawBelowTotalIsCovered(ws, x, false);
  }

  /** Every pool of the backend catalog yields one of its swimmers for every
      sample in [0, 1). */
  lemma CatalogPoolsAlwaysSelect(tier: string, u: real)
    requires tier in Sperms()
    requires 0.0 <= u < 1.0
    ensures Selected(Sperms()[tier], u).Some?
    ensures Selected(Sperms()[tier], u).value in Sperms()[tier]
  {
    SpermsWellFormed(tier);
    SelectionAlwaysSucceeds(Sperms()[tier], u);
  }

  lemma ScaledDrawBelowTotal(pool: seq<PoolItem>, u: real)
    requires |pool| > 0 && AllPositive(PoolWeights(pool))
    requires 0.0 <= u < 1.0
    ensures 0.0 <= ScaledDraw(pool, u) < Sum(PoolWeights(pool)) as real
  {
    var ws := PoolWeights(pool);
    PrefixAll(ws);
    PrefixStrictlyIncreasing(ws, 0, |ws|);
    assert ws[..0] == [];
    TotalPositiveScales(u, Sum(ws), ScaledDraw(pool, u));
  }

  /** A sample in [0, 1) scaled by a positive whole total lies in [0, total). */
  lemma TotalPositiveScales(u: real, total: int, x: real)
    requires 0.0 <= u < 1.0
    requires total > 0
    requires x == u * total as real
    ensures 0.0 <= x < total as real
  {
    ScaleBelow(u, total as real);
  }

  /** Position `k` is chosen exactly when the scaled draw lies in the band
      (Prefix(k), Prefix(k+1)], whose width is the item's own weight; the first
      position also takes the draw 0. Over a uniform sample this is probability
      weight / total. */
  lemma SelectedExactlyInBand(pool: seq<PoolItem>, u: real, k: nat)
    requires AllPositive(PoolWeights(pool))
    requires k < |pool|
    ensures var ws := PoolWeights(pool);
            var x := ScaledDraw(pool, u);
            SelectedIndex(pool, u) == Some(k) <==>
              (k == 0 || Prefix(ws, k) as real < x) && x <= Prefix(ws, k + 1) as real
    ensures Prefix(PoolWeights(pool), k + 1) - Prefix(PoolWeights(pool), k) == pool[k].weight
  {
    SelectedBand(PoolWeights(pool), ScaledDraw(pool, u), false, k);
  }

  /** A larger sample never selects an earlier position of the pool. */
  lemma SelectionMonotone(pool: seq<PoolItem>, u: real, v: real)
    requires u <= v
    requires AllPositive(PoolWeights(pool))
    requires SelectedIndex(pool, v).Some?
    ensures SelectedIndex(pool, u).Some?
    ensures SelectedIndex(pool, u).value <= SelectedIndex(pool, v).value
  {
    ScaledDrawMonotone(pool, u, v);
    FirstCoveringMonotone(PoolWeights(pool), ScaledDraw(pool, u), ScaledDraw(pool, v), false);
  }

  lemma ScaledDrawMonotone(pool: seq<PoolItem>, u: real, v: real)
    requires u <= v
    requires AllPositive(PoolWeights(pool))
    ensures ScaledDraw(pool, u) <= ScaledDraw(pool, v)
  {
    SumNonNegative(PoolWeights(pool));
    ScaleMonotone(u, v, Sum(PoolWeights(pool)) as real);
  }

  lemma {:induction false} SumNonNegative(ws: seq<int>)
    requires AllPositive(ws)
    ensures Sum(ws) >= 0
  {
    if |ws| > 0 {
      SumNonNegative(ws[..|ws| - 1]);
    }
  }
}

=== FILE: rarity_helpers.dfy ===
/** The frontend's rarity look-ups (frontend/src/utils/rarityHelpers.js):
    colour, icon, background gradient and overlay effect of a rarity string.
    The tables are keyed by the four canonical tier names; every other string
    falls back to the Common entry (or, for the effect, to no effect). */
module RarityHelpers {
  import opened Basics

  /** The tier whose entry a look-up with fallback uses. */
  function TierOrCommon(rarity: string): (t: Tier)
    ensures rarity in TierNames ==> TierName(t) == rarity
    ensures rarity !in TierNames ==> t == Common
  {
    ParseTierRecognisesOnlyTierNames(rarity);
    match ParseTier(rarity)
    case Some(t) => t
    case None => Common
  }

  // ---------------------------------------------------------------------
  // Colours
  // ---------------------------------------------------------------------

  /** Each tier's colour, by tier. */
  function ColorOf(t: Tier): string
  {
    match t
    case Common => "#9ca3af"
    case Rare => "#3b82f6"
    case Epic => "#8b5cf6"
    case Mythic => "#facc15"
  }

  /** `colorMap` inside `getRarityColor`, built from `ColorOf` so the table
      and the per-tier colour are one definition. */
  function ColorMap(): map<string, string>
  {
    TierMap(ColorOf(Common), ColorOf(Rare), ColorOf(Epic), ColorOf(Mythic))
  }

  /** `getRarityColor`: the table entry, or the Common colour for any other
      string ("Legendary" included). */
  function GetRarityColor(rarity: string): (r: string)
    ensures r == ColorOf(TierOrCommon(rarity))
  {
    if rarity in ColorMap() && ColorMap()[rarity] != "" then ColorMap()[rarity] else ColorMap()["Common"]
  }

  /** `glowColorMap`, a separate table written out with its own literals. */
  function GlowColorMap(): map<string, string>
  {
    map["Common" := "#9ca3af", "Rare" := "#3b82f6", "Epic" := "#8b5cf6", "Mythic" := "#facc15"]
  }

  /** The glow colours are the tier colours, on exactly the four tiers. */
  lemma GlowColorMapAgrees()
    ensures GlowColorMap().Keys == TierNames
    ensures forall t: Tier :: GlowColorMap()[TierName(t)] == GetRarityColor(TierName(t))
  {
    forall t: Tier ensures GlowColorMap()[TierName(t)] == GetRarityColor(TierName(t)) {
      TierNameRoundTrip(t);
    }
  }

  // ---------------------------------------------------------------------
  // Icons
  // ---------------------------------------------------------------------

  /** Each tier's icon: white, blue, purple and yellow circles. */
  function IconOf(t: Tier): string
  {
    match t
    case Common => "\U{26AA}"
    case Rare => "\U{1F535}"
    case Epic => "\U{1F7E3}"
    case Mythic => "\U{1F7E1}"
  }

  /** `iconMap` inside `getRarityIcon`, built from `IconOf`. */
  function IconMap(): map<string, string>
  {
    TierMap(IconOf(Common), IconOf(Rare), IconOf(Epic), IconOf(Mythic))
  }

  /** `getRarityIcon`: the table entry, or the Common icon. */
  function GetRarityIcon(rarity: string): (r: string)
    ensures r == IconOf(TierOrCommon(rarity))
  {
    if rarity in IconMap() && IconMap()[rarity] != "" then IconMap()[rarity] else IconMap()["Common"]
  }

  // ---------------------------------------------------------------------
  // Gradients
  // ---------------------------------------------------------------------

  /** The shape every gradient of the table shares: a 20% tint of the tier's
      colour fading to transparent. */
  function TintGradient(rgb: string): string
  {
    "linear-gradient(135deg, rgba(" + rgb + ", 0.2) 0%, transparent 100%)"
  }

  function GradientOf(t: Tier): string
  {
    match t
    case Common => TintGradient("156, 163, 175")
    case Rare => TintGradient("59, 130, 246")
    case Epic => TintGradient("139, 92, 246")
    case Mythic => TintGradient("250, 204, 21")
  }

  /** `gradientMap` inside `getRarityGradient`, built from `GradientOf`. */
  function GradientMap(): map<string, string>
  {
    TierMap(GradientOf(Common), GradientOf(Rare), GradientOf(Epic), GradientOf(Mythic))
  }

  /** `getRarityGradient`: the table entry, or the Common gradient. */
  function GetRarityGradient(rarity: string): (r: string)
    ensures r == GradientOf(TierOrCommon(rarity))
  {
    if rarity in GradientMap() && GradientMap()[rarity] != "" then GradientMap()[rarity] else GradientMap()["Common"]
  }

  // ---------------------------------------------------------------------
  // Overlay effect
  // ---------------------------------------------------------------------

  datatype Effect = Effect(background: string, color: string, text: string)

  /** `getRarityEffect`: a `switch` with cases for Mythic, Epic and Rare;
      `null` for everything else. */
  function GetRarityEffect(rarity: string): (r: Option<Effect>)
    ensures r.Some? <==> rarity in {"Rare", "Epic", "Mythic"}
  {
    if rarity == "Mythic" then
      Some(Effect("radial-gradient(circle, rgba(255,215,0,0.3), transparent 70%)", "gold",
                  "\U{1F31F} MYTHIC DROP! \U{1F31F}"))
    else if rarity == "Epic" then
      Some(Effect("radial-gradient(circle, rgba(183,136,255,0.3), transparent 70%)", "#b388ff",
                  "\U{1F49C} Epic Find!"))
    else if rarity == "Rare" then
      Some(Effect("radial-gradient(circle, rgba(100,181,246,0.25), transparent 70%)", "#64b5f6",
                  "\U{1F4A0} Rare Discovery!"))
    else None
  }

  // ---------------------------------------------------------------------
  // Properties of the tables
  // ---------------------------------------------------------------------

  /** The four tiers get pairwise distinct colours, icons and effects, so each look-up tells the tiers apart. */
  lemma TiersDistinguishable(a: Tier, b: Tier)
    requires a != b
    ensures GetRarityColor(TierName(a)) != GetRarityColor(TierName(b))
    ensures GetRarityIcon(TierName(a)) != GetRarityIcon(TierName(b))
    ensures GetRarityEffect(TierName(a)) != GetRarityEffect(TierName(b))
  {
    TierOrCommonOfTierName(a);
    TierOrCommonOfTierName(b);
    ColorOfInjective(a, b);
    IconOfInjective(a, b);
    EffectInjective(a, b);
  }

  lemma TierOrCommonOfTierName(t: Tier)
    ensures TierOrCommon(TierName(t)) == t
  {
    TierNameRoundTrip(t);
  }

  /** A character that tells the tiers' colours apart. */
  lemma ColorSignature(t: Tier)
    ensures |ColorOf(t)| == 7
    ensures ColorOf(t)[1] == match t case Common => '9' case Rare => '3' case Epic => '8' case Mythic => 'f'
  {
  }

  lemma ColorOfInjective(a: Tier, b: Tier)
    requires a != b
    ensures ColorOf(a) != ColorOf(b)
  {
    ColorSignature(a);
    ColorSignature(b);
  }

  lemma IconSignature(t: Tier)
    ensures |IconOf(t)| == 1
    ensures IconOf(t)[0] == match t case Common => '\U{26AA}' case Rare => '\U{1F535}' case Epic => '\U{1F7E3}' case Mythic => '\U{1F7E1}'
  {
  }

  lemma IconOfInjective(a: Tier, b: Tier)
    requires a != b
    ensures IconOf(a) != IconOf(b)
  {
    IconSignature(a);
    IconSignature(b);
  }

  lemma EffectInjective(a: Tier, b: Tier)
    requires a != b
    ensures GetRarityEffect(TierName(a)) != GetRarityEffect(TierName(b))
  {
    EffectPresence(a);
    EffectPresence(b);
    if a != Common && b != Common {
      EffectSignature(a);
      EffectSignature(b);
    }
  }

  /** Only Common, among the tiers, has no effect. */
  lemma EffectPresence(t: Tier)
    ensures GetRarityEffect(TierName(t)).None? <==> t == Common
  {
  }

  /** The effect colours of Rare, Epic and Mythic differ in their second
      character. */
  lemma EffectSignature(t: Tier)
    requires t != Common
    ensures GetRarityEffect(TierName(t)).Some?
    ensures |GetRarityEffect(TierName(t)).value.color| > 1
    ensures GetRarityEffect(TierName(t)).value.color[1] == match t case Mythic => 'o' case Epic => 'b' case _ => '6'
  {
  }

  /** Any string that is not one of the four tier names (for instance the
      "Legendary" the backend's rarity pick produces) is drawn with every
      Common look and no overlay effect. */
  lemma UnknownRarityLooksCommon(rarity: string)
    requires rarity !in TierNames
    ensures GetRarityColor(rarity) == GetRarityColor("Common")
    ensures GetRarityIcon(rarity) == GetRarityIcon("Common")
    ensures GetRarityGradient(rarity) == GetRarityGradient("Common")
    ensures GetRarityEffect(rarity).None?
  {
    TierOrCommonOfTierName(Common);
  }

  /** Common itself has no overlay effect either. */
  lemma CommonHasNoEffect()
    ensures GetRarityEffect("Common").None?
  {
  }
}

=== FILE: server.dfy ===
/** The backend's draw rules (gene-summon-backend/index.js): the race that
    decides a capsule tier, the rarity pick that a capsule biases, and the
    summon that filters the card list by that rarity and indexes into it.
    Every `Math.random()` is an explicit sample in [0, 1). */
module Server {
  import opened Basics
  import opened Weights
  import opened BackendCatalog

  // ---------------------------------------------------------------------
  // Rarity tables
  // ---------------------------------------------------------------------

  /** `baseRarityWeights`, used when no capsule tier applies. */
  function BaseRarityWeights(): seq<Weighted>
  {
    [Weighted("Common", 50), Weighted("Rare", 30), Weighted("Epic", 15), Weighted("Legendary", 5)]
  }

  /** `rarityOdds`, each probability written as a whole percentage: the
      row for a capsule tier gives the chance of each card rarity. */
  function RarityOdds(): map<string, seq<Weighted>>
  {
    map[
      "Common" := [Weighted("Common", 70), Weighted("Rare", 20), Weighted("Epic", 8), Weighted("Legendary", 2)],
      "Rare" := [Weighted("Common", 50), Weighted("Rare", 30), Weighted("Epic", 15), Weighted("Legendary", 5)],
      "Epic" := [Weighted("Common", 30), Weighted("Rare", 40), Weighted("Epic", 20), Weighted("Legendary", 10)],
      "Mythic" := [Weighted("Common", 10), Weighted("Rare", 20), Weighted("Epic", 30), Weighted("Legendary", 40)]
    ]
  }

  /** The card rarities the backend can name, in scan order. */
  const CardRarities: seq<string> := ["Common", "Rare", "Epic", "Legendary"]

  /** A rarity table of the shape both scans walk: the four card rarities in
      order, with positive weights that add up to 100. */
  predicate IsRarityTable(rows: seq<Weighted>)
  {
    && |rows| == 4
    && (forall i :: 0 <= i < 4 ==> rows[i].key == CardRarities[i])
    && AllPositive(RowWeights(rows))
    && Sum(RowWeights(rows)) == 100
  }

  lemma BaseRarityWeightsWellFormed()
    ensures IsRarityTable(BaseRarityWeights())
  {
    SumOfFour(RowWeights(BaseRarityWeights()));
  }

  /** Every `rarityOdds` row adds up to 100%, and the capsule tiers it is keyed
      by are exactly the four race tiers. */
  lemma RarityOddsWellFormed()
    ensures RarityOdds().Keys == TierNames
    ensures forall t :: t in RarityOdds() ==> IsRarityTable(RarityOdds()[t])
  {
    var m := RarityOdds();
    SumOfFour(RowWeights(m["Common"]));
    SumOfFour(RowWeights(m["Rare"]));
    SumOfFour(RowWeights(m["Epic"]));
    SumOfFour(RowWeights(m["Mythic"]));
  }

  // ---------------------------------------------------------------------
  // pickRandomRarity
  // ---------------------------------------------------------------------

  /** The key at the position a scan stopped at, or the `"Common"` fallback
      when it ran off the end. */
  function KeyOrCommon(rows: seq<Weighted>, k: Option<nat>): string
  {
    if k.Some? && k.value < |rows| then rows[k.value].key else "Common"
  }

  /** The `for ... of` scan of `pickRandomRarity`: add each weight to the
      running total `acc` and return the first key with `x < acc`; return
      `"Common"` after the last row. Called with `acc` the total of the rows
      before `i`. */
  function ScanRows(rows: seq<Weighted>, x: real, i: nat, acc: int): (r: string)
    requires i <= |rows|
    requires acc == Prefix(RowWeights(rows), i)
    ensures r == KeyOrCommon(rows, FirstCoveringFrom(RowWeights(rows), x, true, i))
    decreases |rows| - i
  {
    if i == |rows| then "Common"
    else
      PrefixStep(RowWeights(rows), i);
      var acc' := acc + rows[i].weight;
      if x < acc' as real then rows[i].key
      else ScanRows(rows, x, i + 1, acc')
  }

  /** Whether a capsule tier selects a `rarityOdds` row: it must be present,
      non-empty (JavaScript truthiness) and one of the row keys. */
  predicate HasOddsRow(capsuleTier: Option<string>)
  {
    capsuleTier.Some? && capsuleTier.value != "" && capsuleTier.value in RarityOdds()
  }

  /** The rows a pick walks and the draw it compares them against. In the
      capsule branch the probabilities are fractions of 1 and the source tests
      `rand < acc`; with percentages that is `100 * rand < acc`. In the base
      branch the draw is `rand * total`. */
  function ScanInput(capsuleTier: Option<string>, u: real): (rowsAndDraw: (seq<Weighted>, real))
  {
    if HasOddsRow(capsuleTier) then (RarityOdds()[capsuleTier.value], u * 100.0)
    else (BaseRarityWeights(), u * Sum(RowWeights(BaseRarityWeights())) as real)
  }

  /** `pickRandomRarity(capsuleTier)` with `Math.random()` = `u`. */
  function PickRandomRarity(capsuleTier: Option<string>, u: real): (r: string)
    ensures r in CardRarities
    ensures r != "Mythic"
  {
    RarityOddsWellFormed();
    var (rows, x) := ScanInput(capsuleTier, u);
    PrefixZero(RowWeights(rows));
    ScanRows(rows, x, 0, 0)
  }

  lemma PrefixZero(ws: seq<int>)
    ensures Prefix(ws, 0) == 0
  {
    assert ws[..0] == [];
  }

  /** Both branches scan a well-formed rarity table with a draw of `100 * u`. */
  lemma ScanInputShape(capsuleTier: Option<string>, u: real)
    ensures IsRarityTable(ScanInput(capsuleTier, u).0)
    ensures ScanInput(capsuleTier, u).1 == u * 100.0
  {
    RarityOddsWellFormed();
    BaseRarityWeightsWellFormed();
  }

  /** An absent, empty or unrecognised capsule tier (the legacy "Legendary"
      included) picks with the base weights, exactly as the capsule-less GET
      endpoint does. */
  lemma UnknownTierUsesBaseWeights(capsuleTier: Option<string>, u: real)
    requires capsuleTier.None? || capsuleTier.value !in TierNames
    ensures PickRandomRarity(capsuleTier, u) == PickRandomRarity(None, u)
  {
    RarityOddsWellFormed();
  }

  /** For a sample in [0, 1) the scan never reaches the `"Common"` fallback, and
      the `k`-th card rarity is returned exactly when `100 * u` lies in
      [Prefix(k), Prefix(k+1)) of the table in use: probability equal to that
      rarity's weight in percent. */
  lemma PickExactlyInBand(capsuleTier: Option<string>, u: real, k: nat)
    requires 0.0 <= u < 1.0
    requires k < 4
    ensures var (rows, x) := ScanInput(capsuleTier, u);
            FirstCovering(RowWeights(rows), x, true).Some?
    ensures var (rows, x) := ScanInput(capsuleTier, u);
            var ws := RowWeights(rows);
            PickRandomRarity(capsuleTier, u) == CardRarities[k] <==>
              Prefix(ws, k) as real <= x < Prefix(ws, k + 1) as real
  {
    var (rows, x) := ScanInput(capsuleTier, u);
    var ws := RowWeights(rows);
    ScanInputShape(capsuleTier, u);
    PrefixZero(ws);
    ScaleBelow(u, 100.0);
    DrawBelowTotalIsCovered(ws, x, true);
    var j := FirstCovering(ws, x, true).value;
    assert PickRandomRarity(capsuleTier, u) == CardRarities[j];
    SelectedBand(ws, x, true, k);
    if j != k {
      assert CardRarities[j] != CardRarities[k];
    }
  }

  /** The chance of a "Legendary" card rises strictly with the capsule tier:
      2% < 5% < 10% < 40%; a capsule-less pick has 5%. */
  lemma LegendaryOddsRiseWithTier()
    ensures RarityOdds()["Common"][3].key == "Legendary"
    ensures RarityOdds()["Common"][3].weight < RarityOdds()["Rare"][3].weight
              < RarityOdds()["Epic"][3].weight < RarityOdds()["Mythic"][3].weight
    ensures forall t :: t in RarityOdds() ==> RarityOdds()[t][3].key == "Legendary"
    ensures BaseRarityWeights()[3].weight == 5
  {
  }

  // ---------------------------------------------------------------------
  // Race
  // ---------------------------------------------------------------------

  /** The capsule tier earned by a race: a ladder on motility alone. */
  function RaceTier(motility: int): (t: Tier)
    ensures t == Mythic <==> motility > 85
    ensures t == Epic <==> 75 < motility <= 85
    ensures t == Rare <==> 65 < motility <= 75
    ensures t == Common <==> motility <= 65
  {
    if motility > 85 then Mythic
    else if motility > 75 then Epic
    else if motility > 65 then Rare
    else Common
  }

  /** More motility never earns a lower tier. */
  lemma RaceTierMonotone(m: int, m': int)
    requires m <= m'
    ensures Rank(RaceTier(m)) <= Rank(RaceTier(m'))
  {
  }

  /** The `/api/race` response. */
  datatype RaceResult = RaceResult(velocity: int, motility: int, linearity: real, capsuleTier: Tier)

  /** `/api/race` with the velocity and motility samples `uv`, `um`; the
      linearity value is passed through as already rounded. */
  function Race(uv: real, um: real, linearity: real): (r: RaceResult)
    ensures 0.0 <= uv < 1.0 ==> 30 <= r.velocity <= 100
    ensures 0.0 <= um < 1.0 ==> 50 <= r.motility <= 100
    ensures r.capsuleTier == RaceTier(r.motility)
    ensures r.linearity == linearity
  {
    FloorIndexWhenInRange(uv, 71);
    FloorIndexWhenInRange(um, 51);
    var velocity := (uv * 71 as real).Floor + 30;
    var motility := (um * 51 as real).Floor + 50;
    RaceResult(velocity, motility, linearity, RaceTier(motility))
  }

  /** The tier ignores velocity and linearity entirely. */
  lemma RaceTierIgnoresVelocityAndLinearity(uv: real, uv': real, um: real, lin: real, lin': real)
    ensures Race(uv, um, lin).capsuleTier == Race(uv', um, lin').capsuleTier
  {
  }

  // ---------------------------------------------------------------------
  // Summon
  // ---------------------------------------------------------------------

  /** A record of `data/spermCards.json` (its contents are not modelled). */
  datatype Card = Card(name: string, quote: string, rarity: string, stats: map<string, int>)

  function HasRarity(rarity: string): Card -> bool
  {
    (c: Card) => c.rarity == rarity
  }

  /** Filter the card list by rarity and take the element at
      `Math.floor(w * options.length)`; `None` is JavaScript's `undefined`. */
  function PickCard(cards: seq<Card>, rarity: string, w: real): (r: Option<Card>)
    ensures r.Some? ==> r.value.rarity == rarity && r.value in cards
    ensures 0.0 <= w < 1.0 ==> (r.Some? <==> exists i :: 0 <= i < |cards| && cards[i].rarity == rarity)
  {
    PickByDraw(Filter(cards, HasRarity(rarity)), w)
  }

  /** `POST /api/summon` with body `{ capsuleTier }`: pick a rarity (sample
      `u`), then a card of that rarity (sample `w`). */
  function Summon(cards: seq<Card>, capsuleTier: Option<string>, u: real, w: real): (r: Option<Card>)
    ensures r.Some? ==> r.value in cards && r.value.rarity in CardRarities
  {
    PickCard(cards, PickRandomRarity(capsuleTier, u), w)
  }

  /** `GET /summon`: a rarity from the base weights, then a card of it. It
      draws exactly as `POST /api/summon` does for a body without a usable
      capsule tier. */
  function SummonGet(cards: seq<Card>, u: real, w: real): (r: Option<Card>)
    ensures r.Some? ==> r.value in cards && r.value.rarity in CardRarities
    ensures forall t :: t !in TierNames ==> r == Summon(cards, Some(t), u, w)
  {
    UnknownTiersUseBaseWeights(u);
    PickCard(cards, PickRandomRarity(None, u), w)
  }

  lemma UnknownTiersUseBaseWeights(u: real)
    ensures forall t :: t !in TierNames ==> PickRandomRarity(Some(t), u) == PickRandomRarity(None, u)
  {
    forall t | t !in TierNames
      ensures PickRandomRarity(Some(t), u) == PickRandomRarity(None, u)
    {
      UnknownTierUsesBaseWeights(Some(t), u);
    }
  }

  /** A card whose rarity is "Mythic" can never be summoned, whatever the
      capsule tier: the rarity pick only names Common, Rare, Epic, Legendary. */
  lemma MythicCardsNeverSummoned(cards: seq<Card>, capsuleTier: Option<string>, u: real, w: real)
    ensures Summon(cards, capsuleTier, u, w).Some? ==> Summon(cards, capsuleTier, u, w).value.rarity != "Mythic"
  {
  }

  /** The summoned card sits at position `floor(w * n)` of the `n` cards of
      the picked rarity, in list order. */
  lemma PickCardIndexesFilteredList(cards: seq<Card>, rarity: string, w: real, options: seq<Card>)
    requires 0.0 <= w < 1.0
    requires options == Filter(cards, HasRarity(rarity))
    requires |options| > 0
    ensures 0 <= (w * |options| as real).Floor < |options|
    ensures PickCard(cards, rarity, w) == Some(options[(w * |options| as real).Floor])
  {
    assert PickCard(cards, rarity, w) == PickByDraw(options, w);
  }
}

=== FILE: sound_player.dfy ===
/** The decision logic of the rarity sound player (frontend/src/soundPlayer.js):
    which sound file a rarity plays, with which effect settings and reverb mix,
    and the persisted mute flag that silences everything. Audio-graph
    construction and playback are not modelled; a play request is described
    by the `Playback` it would start. */
module SoundPlayer {
  import opened Basics
  import opened Weights

  // ---------------------------------------------------------------------
  // Sound choice
  // ---------------------------------------------------------------------

  /** `raritySoundMap`: sound file paths per rarity (asset imports). */
  type SoundMap = map<string, seq<string>>

  /** `getRandomSound(rarity)` with `Math.random()` = `u`: a uniform pick from
      the rarity's list, from the Common list when the rarity has none, and
      `null` when Common has none either. */
  function GetRandomSound(sounds: SoundMap, rarity: string, u: real): (r: Option<string>)
    ensures r.Some? ==> (rarity in sounds && r.value in sounds[rarity]) || ("Common" in sounds && r.value in sounds["Common"])
    ensures 0.0 <= u < 1.0 ==>
              (r.None? <==> (rarity !in sounds || |sounds[rarity]| == 0) && ("Common" !in sounds || |sounds["Common"]| == 0))
  {
    if rarity !in sounds || |sounds[rarity]| == 0 then
      if "Common" !in sounds || |sounds["Common"]| == 0 then None
      else PickByDraw(sounds["Common"], u)
    else PickByDraw(sounds[rarity], u)
  }

  /** `raritySoundMap` as shipped: two sounds for each of the four tiers. */
  function RaritySoundMap(): (m: SoundMap)
    ensures m.Keys == TierNames
    ensures forall t :: t in m ==> |m[t]| == 2
  {
    map[
      "Common" := ["sounds/common_fart.mp3", "sounds/common_pipe.mp3"],
      "Rare" := ["sounds/rare_fah.mp3", "sounds/rare_fart.mp3"],
      "Epic" := ["sounds/epic_galaxy.mp3", "sounds/epic_rizz.mp3"],
      "Mythic" := ["sounds/mythic_anime_wow.mp3", "sounds/mythic_romance.mp3"]
    ]
  }

  /** With the shipped map every rarity string gets a sound: a tier name one
      of its own, any other string (such as "Legendary") one of Common's. */
  lemma ShippedMapAlwaysHasSound(rarity: string, u: real)
    requires 0.0 <= u < 1.0
    ensures GetRandomSound(RaritySoundMap(), rarity, u).Some?
    ensures rarity in TierNames ==> GetRandomSound(RaritySoundMap(), rarity, u).value in RaritySoundMap()[rarity]
    ensures rarity !in TierNames ==> GetRandomSound(RaritySoundMap(), rarity, u).value in RaritySoundMap()["Common"]
  {
  }

  /** A rarity with sounds of its own plays the one at `floor(u * n)` of its
      list of `n`. */
  lemma OwnSoundAtScaledIndex(sounds: SoundMap, rarity: string, u: real)
    requires 0.0 <= u < 1.0
    requires rarity in sounds && |sounds[rarity]| > 0
    ensures 0 <= (u * |sounds[rarity]| as real).Floor < |sounds[rarity]|
    ensures GetRandomSound(sounds, rarity, u) == Some(sounds[rarity][(u * |sounds[rarity]| as real).Floor])
  {
    FloorIndex(u, |sounds[rarity]|);
  }

  /** A rarity without sounds of its own ("Legendary" in the shipped map)
      plays exactly what Common would play with the same sample. */
  lemma MissingRarityFallsBackToCommon(sounds: SoundMap, rarity: string, u: real)
    requires rarity !in sounds || |sounds[rarity]| == 0
    ensures GetRandomSound(sounds, rarity, u) == GetRandomSound(sounds, "Common", u)
  {
  }

  // ---------------------------------------------------------------------
  // Effect settings
  // ---------------------------------------------------------------------

  /** One row of `rarityEffects`; fields the row omits are `None`. */
  datatype Effects = Effects(
    volume: real,
    playbackRate: real,
    reverb: bool,
    reverbDuration: Option<real>,
    reverbDecay: Option<real>,
    lowpass: bool,
    lowpassFreq: Option<int>,
    bassBoost: bool)

  function EffectsOf(t: Tier): Effects
  {
    match t
    case Common => Effects(0.15, 1.0, false, None, None, false, None, false)
    case Rare => Effects(0.2, 1.05, true, Some(1.5), Some(1.5), false, None, false)
    case Epic => Effects(0.25, 1.1, true, Some(2.0), Some(2.0), false, None, false)
    case Mythic => Effects(0.35, 1.15, true, Some(2.5), Some(2.5), true, Some(8000), false)
  }

  /** `rarityEffects`. */
  function RarityEffects(): map<string, Effects>
  {
    map["Common" := EffectsOf(Common), "Rare" := EffectsOf(Rare), "Epic" := EffectsOf(Epic), "Mythic" := EffectsOf(Mythic)]
  }

  /** `rarityEffects[rarity] || rarityEffects.Common`. */
  function EffectsFor(rarity: string): (e: Effects)
    ensures rarity in TierNames ==> e == EffectsOf(ParseTier(rarity).value)
    ensures rarity !in TierNames ==> e == EffectsOf(Common)
  {
    ParseTierRecognisesOnlyTierNames(rarity);
    if rarity in RarityEffects() then RarityEffects()[rarity] else RarityEffects()["Common"]
  }

  /** Every volume stays at or below 0.35, and volume and playback rate both
      rise strictly with the tier. */
  lemma EffectsRiseWithTier(a: Tier, b: Tier)
    requires Rank(a) < Rank(b)
    ensures EffectsOf(a).volume < EffectsOf(b).volume <= 0.35
    ensures EffectsOf(a).playbackRate < EffectsOf(b).playbackRate
  {
  }

  /** The reverb's dry and wet gains: wet is 0.5 when the reverb lasts longer
      than 2.5 seconds and 0.35 otherwise (a missing duration compares false). */
  function ReverbMix(e: Effects): (gains: (real, real))
    ensures gains.0 + gains.1 == 1.0
    ensures gains.1 == 0.35 || gains.1 == 0.5
  {
    var intensity := if e.reverbDuration.Some? && e.reverbDuration.value > 2.5 then 0.5 else 0.35;
    (1.0 - intensity, intensity)
  }

  /** No tier's reverb is longer than 2.5 seconds (Mythic's is exactly 2.5),
      so the louder 0.5 mix is never used. */
  lemma WetGainAlwaysLow(rarity: string)
    ensures ReverbMix(EffectsFor(rarity)).1 == 0.35
  {
  }

  // ---------------------------------------------------------------------
  // Mute flag
  // ---------------------------------------------------------------------

  /** The browser's `localStorage`, reduced to string keys and values. */
  type Storage = map<string, string>

  const MuteStorageKey: string := "soundMuted"

  /** The string `setMuteState` writes for a flag. */
  function StoredFlag(muted: bool): string
  {
    if muted then "true" else "false"
  }

  /** `getMuteState` / `isMuted`: muted exactly when the stored value is the
      string "true"; a missing key means not muted. */
  predicate IsMuted(store: Storage): (b: bool)
    ensures MuteStorageKey !in store ==> !b
    ensures b ==> StoredFlag(true) == store[MuteStorageKey]
  {
    MuteStorageKey in store && store[MuteStorageKey] == "true"
  }

  /** `setMuteState` / `setMuted`: store "true" or "false"; no other key
      changes. */
  function SetMuted(store: Storage, muted: bool): (store': Storage)
    ensures IsMuted(store') == muted
    ensures forall k :: k in store && k != MuteStorageKey ==> k in store' && store'[k] == store[k]
    ensures store'.Keys == store.Keys + {MuteStorageKey}
  {
    store[MuteStorageKey := StoredFlag(muted)]
  }

  /** `toggleMute`: flip the flag and return the new state with the new store. */
  function ToggleMute(store: Storage): (result: (Storage, bool))
    ensures result.1 == !IsMuted(store)
    ensures IsMuted(result.0) == result.1
  {
    var newState := !IsMuted(store);
    (SetMuted(store, newState), newState)
  }

  /** Only the "soundMuted" entry decides the flag: two stores that agree on
      it agree on the mute state, whatever else they hold. */
  lemma OnlyMuteKeyMatters(store: Storage, store': Storage)
    requires MuteStorageKey in store <==> MuteStorageKey in store'
    requires MuteStorageKey in store ==> store[MuteStorageKey] == store'[MuteStorageKey]
    ensures IsMuted(store) == IsMuted(store')
  {
  }

  /** Toggling twice restores the mute state, whatever was stored before. */
  lemma ToggleTwiceRestores(store: Storage)
    ensures IsMuted(ToggleMute(ToggleMute(store).0).0) == IsMuted(store)
    ensures ToggleMute(ToggleMute(store).0).1 == IsMuted(store)
  {
  }

  /** Setting the flag twice is the same as setting it once to the last value. */
  lemma SetMutedLastWins(store: Storage, a: bool, b: bool)
    ensures SetMuted(SetMuted(store, a), b) == SetMuted(store, b)
  {
  }

  // ---------------------------------------------------------------------
  // Play requests
  // ---------------------------------------------------------------------

  /** What a play request starts: the file and the settings applied to it.
      `wetGain` is the reverb's wet gain on the Web Audio path for a tier with
      reverb, and `None` otherwise. */
  datatype Playback = Playback(path: string, volume: real, playbackRate: real, wetGain: Option<real>)

  /** `playWithWebAudio` when the audio graph can be built and started, and
      `playWithHTMLAudio` otherwise: a falsy path plays nothing, anything else
      plays at the rarity's volume and rate, with the reverb mix only on the
      Web Audio path. */
  function PlayWith(sounds: SoundMap, rarity: string, u: real, webAudio: bool): (p: Option<Playback>)
    ensures p.Some? ==> GetRandomSound(sounds, rarity, u) == Some(p.value.path) && p.value.path != ""
    ensures p.Some? ==> p.value.volume == EffectsFor(rarity).volume && p.value.volume <= 0.35
    ensures p.Some? ==> p.value.playbackRate == EffectsFor(rarity).playbackRate
    ensures p.Some? && p.value.wetGain.Some? ==> webAudio && EffectsFor(rarity).reverb && p.value.wetGain.value == 0.35
    ensures GetRandomSound(sounds, rarity, u).Some? && GetRandomSound(sounds, rarity, u).value != "" ==> p.Some?
    ensures p.Some? ==> (p.value.wetGain.Some? <==> webAudio && EffectsFor(rarity).reverb)
  {
    match GetRandomSound(sounds, rarity, u)
    case None => None
    case Some(path) =>
      if path == "" then None
      else
        var e := EffectsFor(rarity);
        WetGainAlwaysLow(rarity);
        Some(Playback(path, e.volume, e.playbackRate, if webAudio && e.reverb then Some(ReverbMix(e).1) else None))
  }

  /** `playRaritySound(rarity)`: nothing when muted; otherwise the Web Audio
      attempt with sample `u`, and when that attempt fails (`webAudioWorks`
      false, or no playable path) the HTML Audio fallback, which draws again
      with sample `uRetry`. */
  function PlayRaritySound(store: Storage, sounds: SoundMap, rarity: string, u: real,
                           webAudioWorks: bool, uRetry: real): (p: Option<Playback>)
    ensures IsMuted(store) ==> p.None?
    ensures p.Some? ==> p.value.volume == EffectsFor(rarity).volume <= 0.35
    ensures p.Some? ==> Some(p.value.path) == GetRandomSound(sounds, rarity, u) ||
                        Some(p.value.path) == GetRandomSound(sounds, rarity, uRetry)
  {
    if IsMuted(store) then None
    else
      var attempt := if webAudioWorks then PlayWith(sounds, rarity, u, true) else None;
      if attempt.Some? then attempt else PlayWith(sounds, rarity, uRetry, false)
  }

  /** Unmuted, with the shipped map and samples in [0, 1), a rarity sound
      always plays, whichever path plays it. */
  lemma ShippedRaritySoundPlaysUnlessMuted(store: Storage, rarity: string, u: real, webAudioWorks: bool, uRetry: real)
    requires 0.0 <= u < 1.0 && 0.0 <= uRetry < 1.0
    ensures PlayRaritySound(store, RaritySoundMap(), rarity, u, webAudioWorks, uRetry).None? <==> IsMuted(store)
  {
    ShippedMapAlwaysHasSound(rarity, u);
    ShippedMapAlwaysHasSound(rarity, uRetry);
    assert forall t, i :: t in RaritySoundMap() && 0 <= i < |RaritySoundMap()[t]| ==> RaritySoundMap()[t][i] != "";
  }

  /** Volume of the regular (race start) sound. */
  const RegularVolume: real := 0.2

  /** `playRegularSound()`: the regular sound at volume 0.2, unless muted. */
  function PlayRegularSound(store: Storage, regularSound: string): (p: Option<Playback>)
    ensures p.None? <==> IsMuted(store)
    ensures p.Some? ==> p.value.path == regularSound && p.value.volume == RegularVolume
  {
    if IsMuted(store) then None else Some(Playback(regularSound, RegularVolume, 1.0, None))
  }

  /** Muting silences both players, and unmuting lets the regular sound play:
      the flag written by `setMuted` is the one every player reads. */
  lemma MuteSilencesEverything(store: Storage, sounds: SoundMap, rarity: string, u: real, webAudioWorks: bool,
                                uRetry: real, regularSound: string)
    ensures PlayRaritySound(SetMuted(store, true), sounds, rarity, u, webAudioWorks, uRetry).None?
    ensures PlayRegularSound(SetMuted(store, true), regularSound).None?
    ensures PlayRegularSound(SetMuted(store, false), regularSound).Some?
  {
  }
}

=== FILE: spermdex.dfy ===
/** The collection bookkeeping of the Spermdex view
    (frontend/src/components/SpermdexView.jsx): whether a catalog swimmer has
    been collected, how many cards of a rarity were collected against how many
    the catalog lists, and which collected card a catalog tile opens. The
    collection is the append-only list of summoned cards, duplicates included. */
module Spermdex {
  import opened Basics
  import opened Api
  import FrontendCatalog

  /** The sections the view renders, top to bottom. */
  const Sections: seq<string> := ["Mythic", "Epic", "Rare", "Common"]

  predicate Matches(c: Card, rarity: string, name: string)
  {
    c.rarity == rarity && c.name == name
  }

  /** `isSpermCollected(rarity, name)`: some collected card has both. A
      marked tile always means its section's collected count is positive. */
  predicate IsSpermCollected(collection: seq<Card>, rarity: string, name: string): (b: bool)
    ensures b ==> CollectedCount(collection, rarity) > 0
  {
    exists i :: 0 <= i < |collection| && Matches(collection[i], rarity, name)
  }

  function OfRarity(rarity: string): Card -> bool
  {
    (c: Card) => c.rarity == rarity
  }

  /** The `collected` half of `getCollectedCount`: cards of that rarity, every
      copy counted. */
  function CollectedCount(collection: seq<Card>, rarity: string): (n: nat)
    ensures n <= |collection|
    ensures n == 0 <==> forall i :: 0 <= i < |collection| ==> collection[i].rarity != rarity
    ensures (forall i :: 0 <= i < |collection| ==> collection[i].rarity == rarity) ==> n == |collection|
  {
    CountExtremes(collection, rarity);
    |Filter(collection, OfRarity(rarity))|
  }

  /** Filtering by rarity keeps nothing exactly when no card has it, and
      everything when every card has it. */
  lemma CountExtremes(collection: seq<Card>, rarity: string)
    ensures |Filter(collection, OfRarity(rarity))| == 0 <==> forall i :: 0 <= i < |collection| ==> collection[i].rarity != rarity
    ensures (forall i :: 0 <= i < |collection| ==> collection[i].rarity == rarity) ==> |Filter(collection, OfRarity(rarity))| == |collection|
  {
    var r := Filter(collection, OfRarity(rarity));
    if forall i :: 0 <= i < |collection| ==> collection[i].rarity == rarity {
      FilterKeepsAll(collection, OfRarity(rarity));
    }
    assert |r| > 0 ==> r[0] in collection && OfRarity(rarity)(r[0]);
  }

  /** The `total` half: the length of the catalog's list for that rarity, or 0
      when the catalog has no such rarity. */
  function TotalCount(catalog: map<string, seq<FrontendCatalog.Entry>>, rarity: string): (n: nat)
  {
    if rarity in catalog then |catalog[rarity]| else 0
  }

  /** `getCollectedCount(rarity)` against the frontend catalog. */
  function GetCollectedCount(collection: seq<Card>, rarity: string): (counts: (nat, nat))
    ensures counts.0 == CollectedCount(collection, rarity)
    ensures counts.1 == (if rarity in TierNames then 5 else 0)
    ensures counts.0 <= |collection|
  {
    FrontendCatalog.AllSpermsWellFormed(rarity);
    (CollectedCount(collection, rarity), TotalCount(FrontendCatalog.AllSperms(), rarity))
  }

  /** `collection.find(...)`: the first collected card with that rarity and
      name, which a catalog tile passes to the detail view. */
  function CollectedData(collection: seq<Card>, rarity: string, name: string): (r: Option<Card>)
    ensures r.Some? <==> IsSpermCollected(collection, rarity, name)
    ensures r.Some? ==> Matches(r.value, rarity, name)
    ensures r.Some? ==> exists i :: 0 <= i < |collection| && collection[i] == r.value &&
                          forall j :: 0 <= j < i ==> !Matches(collection[j], rarity, name)
    decreases |collection|
  {
    if |collection| == 0 then None
    else if Matches(collection[0], rarity, name) then
      Some(collection[0])
    else
      var rest := CollectedData(collection[1..], rarity, name);
      CollectedInTail(collection, rarity, name);
      if rest.Some? then
        FirstMatchInTail(collection, rarity, name, rest.value);
        rest
      else
        rest
  }

  /** When the head does not match, the tile is collected in the whole
      collection exactly when it is collected in the rest. */
  lemma CollectedInTail(collection: seq<Card>, rarity: string, name: string)
    requires |collection| > 0 && !Matches(collection[0], rarity, name)
    ensures IsSpermCollected(collection[1..], rarity, name) <==> IsSpermCollected(collection, rarity, name)
  {
    if IsSpermCollected(collection, rarity, name) {
      var i :| 0 <= i < |collection| && Matches(collection[i], rarity, name);
      assert Matches(collection[1..][i - 1], rarity, name);
    }
    if IsSpermCollected(collection[1..], rarity, name) {
      var i :| 0 <= i < |collection[1..]| && Matches(collection[1..][i], rarity, name);
      assert Matches(collection[i + 1], rarity, name);
    }
  }

  /** The first match in the rest, after a non-matching head, is the first
      match of the whole collection. */
  lemma FirstMatchInTail(collection: seq<Card>, rarity: string, name: string, c: Card)
    requires |collection| > 0 && !Matches(collection[0], rarity, name)
    requires exists i :: 0 <= i < |collection[1..]| && collection[1..][i] == c &&
               forall j :: 0 <= j < i ==> !Matches(collection[1..][j], rarity, name)
    ensures exists i :: 0 <= i < |collection| && collection[i] == c &&
              forall j :: 0 <= j < i ==> !Matches(collection[j], rarity, name)
  {
    var i :| 0 <= i < |collection[1..]| && collection[1..][i] == c &&
             forall j :: 0 <= j < i ==> !Matches(collection[1..][j], rarity, name);
    assert collection[i + 1] == c;
    forall j | 0 <= j < i + 1 ensures !Matches(collection[j], rarity, name) {
      if j > 0 { assert collection[j] == collection[1..][j - 1]; }
    }
  }

  /** Collecting one more card adds one to its own rarity's count and nothing
      to any other: duplicates count every time. */
  lemma CollectedCountAppend(collection: seq<Card>, card: Card, rarity: string)
    ensures CollectedCount(collection + [card], rarity) ==
              CollectedCount(collection, rarity) + (if card.rarity == rarity then 1 else 0)
  {
    FilterAppend(collection, card, OfRarity(rarity));
  }

  /** A card whose rarity is not one of the four sections ("Legendary", say)
      counts toward no section of the view. */
  lemma UnknownRarityCountsNowhere(collection: seq<Card>, card: Card)
    requires card.rarity !in Sections
    ensures forall i :: 0 <= i < |Sections| ==>
              CollectedCount(collection + [card], Sections[i]) == CollectedCount(collection, Sections[i])
  {
    forall i | 0 <= i < |Sections|
      ensures CollectedCount(collection + [card], Sections[i]) == CollectedCount(collection, Sections[i])
    {
      CollectedCountAppend(collection, card, Sections[i]);
    }
  }

  /** The collected count is not bounded by the total: six draws of the same
      Common card read "Collected: 6/5" although one swimmer is collected. */
  lemma CollectedCanExceedTotal(card: Card)
    requires card.rarity == "Common"
    ensures var collection := [card, card, card, card, card, card];
            GetCollectedCount(collection, "Common") == (6, 5)
  {
    var collection := [card, card, card, card, card, card];
    var p := OfRarity("Common");
    FilterKeepsAll(collection, p);
  }
}

=== FILE: weights.dfy ===
/** Cumulative weights: the one arithmetic concept behind every weighted draw
    in the program. A draw `x` walks a list of weights in declaration order and
    stops at the first position whose running total covers `x`. */
module Weights {
  import opened Basics

  /** Sum of a list of weights. */
  function Sum(ws: seq<int>): int
  {
    if |ws| == 0 then 0 else Sum(ws[..|ws| - 1]) + ws[|ws| - 1]
  }

  /** Sum of the first `k` weights. */
  function Prefix(ws: seq<int>, k: nat): int
    requires k <= |ws|
  {
    Sum(ws[..k])
  }

  predicate AllPositive(ws: seq<int>)
  {
    forall i :: 0 <= i < |ws| ==> ws[i] > 0
  }

  /** Going one position further adds exactly that position's weight. */
  lemma PrefixStep(ws: seq<int>, k: nat)
    requires k < |ws|
    ensures Prefix(ws, k + 1) == Prefix(ws, k) + ws[k]
  {
    assert ws[..k + 1][..k] == ws[..k];
  }

  lemma PrefixAll(ws: seq<int>)
    ensures Prefix(ws, |ws|) == Sum(ws)
  {
    assert ws[..|ws|] == ws;
  }

  /** With positive weights the running total strictly increases. */
  lemma {:induction false} PrefixStrictlyIncreasing(ws: seq<int>, i: nat, j: nat)
    requires AllPositive(ws)
    requires i < j <= |ws|
    ensures Prefix(ws, i) < Prefix(ws, j)
    decreases j - i
  {
    PrefixStep(ws, j - 1);
    if i < j - 1 {
      PrefixStrictlyIncreasing(ws, i, j - 1);
    }
  }

  /** Position `k` covers the draw `x`: the running total up to and including
      `k` exceeds `x` (strict) or reaches it (non-strict). */
  predicate Covers(ws: seq<int>, x: real, k: nat, strict: bool)
    requires k < |ws|
  {
    if strict then x < Prefix(ws, k + 1) as real else x <= Prefix(ws, k + 1) as real
  }

  /** `k` is the first position that covers `x`. */
  predicate IsFirstCovering(ws: seq<int>, x: real, k: nat, strict: bool)
  {
    && k < |ws|
    && Covers(ws, x, k, strict)
    && forall j :: 0 <= j < k ==> !Covers(ws, x, j, strict)
  }

  /** Reference definition of a cumulative-weight draw: the first position,
      from `from` on, that covers `x`, or `None` when no position does. */
  function FirstCoveringFrom(ws: seq<int>, x: real, strict: bool, from: nat): (r: Option<nat>)
    requires from <= |ws|
    ensures r.Some? ==> from <= r.value < |ws| && Covers(ws, x, r.value, strict)
    ensures r.Some? ==> forall j :: from <= j < r.value ==> !Covers(ws, x, j, strict)
    ensures r.None? ==> forall j :: from <= j < |ws| ==> !Covers(ws, x, j, strict)
    decreases |ws| - from
  {
    if from == |ws| then None
    else if Covers(ws, x, from, strict) then Some(from)
    else FirstCoveringFrom(ws, x, strict, from + 1)
  }

  function FirstCovering(ws: seq<int>, x: real, strict: bool): (r: Option<nat>)
    ensures r.Some? ==> IsFirstCovering(ws, x, r.value, strict)
    ensures r.None? ==> forall j :: 0 <= j < |ws| ==> !Covers(ws, x, j, strict)
  {
    FirstCoveringFrom(ws, x, strict, 0)
  }

  /** At most one position is the first covering one. */
  lemma FirstCoveringUnique(ws: seq<int>, x: real, strict: bool, k: nat, k': nat)
    requires IsFirstCovering(ws, x, k, strict) && IsFirstCovering(ws, x, k', strict)
    ensures k == k'
  {
  }

  /** The first covering position is what the search returns. */
  lemma FirstCoveringIs(ws: seq<int>, x: real, strict: bool, k: nat)
    requires IsFirstCovering(ws, x, k, strict)
    ensures FirstCovering(ws, x, strict) == Some(k)
  {
    if FirstCovering(ws, x, strict).Some? {
      FirstCoveringUnique(ws, x, strict, k, FirstCovering(ws, x, strict).value);
    }
  }

  /** When no position covers the draw, the search returns nothing. */
  lemma FirstCoveringNone(ws: seq<int>, x: real, strict: bool)
    requires forall j :: 0 <= j < |ws| ==> !Covers(ws, x, j, strict)
    ensures FirstCovering(ws, x, strict).None?
  {
  }

  /** A draw below the total is always covered by some position. */
  lemma DrawBelowTotalIsCovered(ws: seq<int>, x: real, strict: bool)
    requires |ws| > 0
    requires x < Sum(ws) as real
    ensures FirstCovering(ws, x, strict).Some?
  {
    PrefixAll(ws);
    assert Covers(ws, x, |ws| - 1, strict);
  }

  /** Monotonicity: a larger draw never selects an earlier position. */
  lemma FirstCoveringMonotone(ws: seq<int>, x: real, y: real, strict: bool)
    requires x <= y
    requires FirstCovering(ws, y, strict).Some?
    ensures FirstCovering(ws, x, strict).Some?
    ensures FirstCovering(ws, x, strict).value <= FirstCovering(ws, y, strict).value
  {
    var j := FirstCovering(ws, y, strict).value;
    assert Covers(ws, x, j, strict);
  }

  /** With positive weights, position `k` is selected exactly when the draw
      lies in the half-open band of width `ws[k]` that ends at the running total
      through `k`: (Prefix(k), Prefix(k+1)] when not strict, and
      [Prefix(k), Prefix(k+1)) when strict. Position 0 additionally takes every
      draw below its band. */
  lemma SelectedBand(ws: seq<int>, x: real, strict: bool, k: nat)
    requires AllPositive(ws)
    requires k < |ws|
    ensures FirstCovering(ws, x, strict) == Some(k) <==>
              && (k == 0 || !Covers(ws, x, k - 1, strict))
              && Covers(ws, x, k, strict)
    ensures Prefix(ws, k + 1) - Prefix(ws, k) == ws[k]
  {
    PrefixStep(ws, k);
    if (k == 0 || !Covers(ws, x, k - 1, strict)) && Covers(ws, x, k, strict) {
      forall j | 0 <= j < k
        ensures !Covers(ws, x, j, strict)
      {
        if j < k - 1 {
          PrefixStrictlyIncreasing(ws, j + 1, k);
        }
      }
      assert IsFirstCovering(ws, x, k, strict);
      FirstCoveringUnique(ws, x, strict, k, FirstCovering(ws, x, strict).value);
    }
  }

  /** A sample in [0, 1) scales a positive total to a draw in [0, total). */
  lemma ScaleBelow(u: real, total: real)
    requires 0.0 <= u < 1.0
    requires total > 0.0
    ensures 0.0 <= u * total < total
  {
    assert total - u * total == (1.0 - u) * total;
  }

  /** Scaling by a non-negative total preserves the order of samples. */
  lemma ScaleMonotone(u: real, v: real, total: real)
    requires u <= v
    requires total >= 0.0
    ensures u * total <= v * total
  {
    assert v * total - u * total == (v - u) * total;
  }

  /** `Math.floor(u * n)` for a sample in [0, 1) is a valid index into a list
      of length `n`. */
  lemma FloorIndex(u: real, n: nat)
    requires 0.0 <= u < 1.0
    requires n > 0
    ensures 0 <= (u * n as real).Floor < n
  {
    ScaleBelow(u, n as real);
  }

  /** `FloorIndex` for any sample: the index is in range when the sample is. */
  lemma FloorIndexWhenInRange(u: real, n: nat)
    ensures 0.0 <= u < 1.0 && n > 0 ==> 0 <= (u * n as real).Floor < n
  {
    if 0.0 <= u < 1.0 && n > 0 {
      FloorIndex(u, n);
    }
  }

  /** `s[Math.floor(w * s.length)]`: a uniform pick by position, `None` where
      JavaScript would read `undefined` (an empty list or a sample outside
      [0, 1)). */
  function PickByDraw<T>(s: seq<T>, w: real): (r: Option<T>)
    ensures r.Some? ==> r.value in s
    ensures 0.0 <= w < 1.0 ==> (r.Some? <==> |s| > 0)
    ensures 0.0 <= w < 1.0 && |s| > 0 ==>
              0 <= (w * |s| as real).Floor < |s| && r == Some(s[(w * |s| as real).Floor])
  {
    FloorIndexWhenInRange(w, |s|);
    var k := (w * |s| as real).Floor;
    if 0 <= k < |s| then Some(s[k]) else None
  }

  /** The sum of four weights, spelled out. */
  lemma SumOfFour(ws: seq<int>)
    requires |ws| == 4
    ensures Sum(ws) == ws[0] + ws[1] + ws[2] + ws[3]
  {
    PrefixAll(ws);
    assert ws[..0] == [];
    PrefixStep(ws, 0);
    PrefixStep(ws, 1);
    PrefixStep(ws, 2);
    PrefixStep(ws, 3);
  }

  /** The sum of five weights, spelled out. */
  lemma SumOfFive(ws: seq<int>)
    requires |ws| == 5
    ensures Sum(ws) == ws[0] + ws[1] + ws[2] + ws[3] + ws[4]
  {
    SumOfFour(ws[..4]);
    assert ws[..4][..3] == ws[..3];
    PrefixAll(ws);
    PrefixAll(ws[..4]);
    PrefixStep(ws, 4);
    assert ws[..4][..4] == ws[..4];
  }
}
